=== FILE: README.md ===
# ConvoForm core in Dafny

This project models the core of ConvoForm, a configuration-driven chat-style form. The form engine
asks the configured questions one at a time. The input field validates each answer before handing
it on. Once every question is answered, a review panel lists the answers with Edit buttons, and
Submit completes the session. Two utilities turn the finished answers into a CSV/JSON export and
into email template parameters.

Modules, one per file:

- `Values` (values.dfy): the JavaScript values that reach the answer store (strings, File
  objects, `null`, `undefined`), truthiness, `||`, `.name` and `String()`.
- `Dicts` (dicts.dfy): a plain JavaScript object as an insertion-ordered list of unique keys.
  It covers assignment, spread and `reduce`-style folds.
- `Strings` (strings.dfy): `replace(/c/g, d)`, `join`, and `split` as the partner of `join`.
- `Forms` (forms.dfy): the form configuration (title, description, questions).
- `InputField` (input_field.dfy): the field's local state, `handleChange`, `validateInput` and
  `handleSubmit`.
- `Summary` (summary.dfy): the review panel's rows and the index each Edit button passes.
- `FormEngine` (form_engine.dfy): the session state and the handlers of the engine component.
  The effect that asks the current question runs after every handler that changes the step or
  the summary flag, so not after Submit. `Step` and `Run` drive the session with user actions.
  `Run` states that the transcript only grows and that a completed session is final.
- `EngineProperties` (engine_properties.dfy): invariants of every reachable session.
  - With unique question ids, none of them integer-like, answer keys always follow question
    order, so an Edit button reaches the question its row shows.
  - A prompt is never asked twice, unless its text equals the title, the description, the review
    message or the thank-you message.
- `ExportData` (export_data.dfy): the CSV header/data rows and text, and the object the JSON
  export serialises.
- `SendEmail` (send_email.dfy): the `question_<id>` / `answer_<id>` / `form_summary` template
  parameters.

External effects are parameters or are left out:

- `Number(value)` is the parameter `isNaNNumber` of `ValidateInput`.
- A custom validator is a function value of the question.
- The half-second delay before advancing is taken as immediate.

Behaviours of the code a reader may not expect:

- Edit targeting. Edit buttons pass the position of the answer key in `Object.keys(answers)`,
  not a question index. Edits overwrite in place, so with unique ids, none of them integer-like,
  that position is always the question's index. `EngineProperties.EditTargetsShownQuestion`
  proves this. `EngineProperties.DuplicateIdsMisdirectEdit` shows how it fails when ids repeat.
  The code does not reject repeated ids; the model allows them.
- Integer-like ids. `Object.keys` lists integer-like keys first, in ascending order. With unique
  ids "10" then "2", the row for "2" comes first and passes index 0, which is the question "10";
  each Edit button then opens the other question. The model keeps plain insertion order (see
  "## Left out").
- Resubmitting after an edit. Resubmitting question k continues at question k + 1, not at the
  summary, unless k is the last question. `EngineProperties.EditThenAnswer` states this.
- Prompt de-duplication. Prompts are de-duplicated by text over the whole transcript, not once
  per visit. A revisited question is therefore not asked again in the transcript. The check does
  not cover the greeting: on mount the effect's closure sees an empty transcript, so a first
  question whose text equals the title or description is shown a second time. Likewise the review
  and thank-you messages are appended without any check. The no-repeat guarantee is therefore
  stated only for prompt texts that differ from these four texts.
- Format checks. The email and number checks run only when the question's `validation` setting
  is present and the value is non-empty. The custom check runs only when `validation` is a
  function.
- Field contents. The input field is not remounted from one question to the next; after an
  accepted submission its text and file are reset, so the next question starts empty. A question
  revisited from the summary gets a freshly mounted field, because the summary replaced the input
  field, so it too starts empty rather than showing the earlier answer.
- `form_summary` content. The email's `form_summary` carries the raw stored answer, so for a file
  question it holds the File object, not its name. The list is sent as `JSON.stringify` text, and a
  File has no own enumerable properties, so the email shows `"answer": {}` for an answered file
  question.

## Model

| member | source | states |
|---|---|---|
| Dicts.Put | convoform/src/components/FormEngine.jsx:54 | After assigning a key, that key reads the new value and every other key reads what it read before |
| Dicts.PutOrder | convoform/src/components/FormEngine.jsx:54 | Assigning a key keeps an existing key in its position and appends a new key last |
| Dicts.PutAll | convoform/src/utils/sendEmail.js:48-50 | In a spread the right-hand object's keys take its values and every other key keeps the left-hand value |
| Dicts.AssignKeys | convoform/src/utils/exportData.js:46-57 | After a `reduce` of assignments the keys are exactly the old keys plus the assigned keys |
| Dicts.AssignUntouched | convoform/src/utils/sendEmail.js:32-45 | A key never assigned by the fold keeps its old value |
| Dicts.AssignLastWins | convoform/src/utils/exportData.js:46-57 | The last assignment to a key determines its value |
| Dicts.AssignKeyOrder | convoform/src/utils/sendEmail.js:32-45 | Assigning distinct new keys appends them in the order assigned |
| Strings.Join | convoform/src/utils/exportData.js:29-32 | The joined text starts with the first field, and each of its characters is the separator or a character of some field |
| Strings.SplitJoin | convoform/src/utils/exportData.js:29-32 | Splitting the join of separator-free fields at the separator gives the fields back |
| Strings.ReplaceAll | convoform/src/utils/exportData.js:13 | The result has the input's length, with every occurrence of the character replaced and every other character kept |
| Forms.FindQuestion | convoform/src/components/Summary.jsx:17 | `find` yields the first question with the id, or none when no question has it |
| InputField.HandleChange | convoform/src/components/InputField.jsx:17-24 | A file input records the picked file and keeps the text; any other input records the typed text and keeps the file; the error is cleared |
| InputField.ChangeThenSubmit | convoform/src/components/InputField.jsx:17-75 | After a change, an accepted submission hands on exactly what the change recorded (the picked file or the typed text); a required field left empty by the change is rejected with the required or the file message |
| InputField.EmailCheckIsPattern | convoform/src/components/InputField.jsx:39 | The computed email check holds exactly when some substring reads x@y.z with x, y, z non-empty runs of non-whitespace, as the unanchored pattern demands |
| InputField.FirstFailureIsEarliest | convoform/src/components/InputField.jsx:26-61 | The ordered checks accept exactly when none fails, and otherwise report the message of the earliest failing check |
| InputField.ValidateInput | convoform/src/components/InputField.jsx:26-61 | The verdict is the earliest failure among the required, file, email, number and custom checks; an optional empty field is accepted; an accepted required field has a value (a file for file fields) |
| InputField.HandleSubmit | convoform/src/components/InputField.jsx:63-75 | A payload is handed on exactly when validation accepts; it is the file for file fields and the text otherwise, and a required field's payload is truthy; acceptance resets the text and file and keeps the error message, rejection only sets the error message |
| Summary.DisplayedAnswer | convoform/src/components/Summary.jsx:33-37 | A file question yields the file name, "No file selected" when unanswered, and undefined when it holds a string; any other question yields its answer, or "No answer provided" exactly when the answer is falsy, never a falsy value |
| Summary.Rows | convoform/src/components/Summary.jsx:16-40 | Every row is the row built for one answer entry, rows follow key order, and an entry has a row exactly when some question has its key |
| Summary.RowsUpTo | convoform/src/components/Summary.jsx:16-40 | One row per answer key that names a question, in key order, each showing the first such question and passing the key's position to the Edit handler; keys naming no question produce no row |
| FormEngine.AskCurrent | convoform/src/components/FormEngine.jsx:28-42 | The current question's prompt is appended exactly when the summary is hidden, the step names a question and no bot message the effect sees has that text; nothing else changes |
| FormEngine.Start | convoform/src/components/FormEngine.jsx:18-42 | A form with questions opens with the title (or default), the description (or default) and the first prompt; an empty form shows nothing |
| FormEngine.OptionLabel | convoform/src/components/FormEngine.jsx:64 | A bare string option yields itself; an option object yields its label, and yields the object itself exactly when the label is empty |
| FormEngine.FindOption | convoform/src/components/FormEngine.jsx:61-63 | The first option whose value (or bare string) equals the answer, or none when no option matches |
| FormEngine.DisplayValue | convoform/src/components/FormEngine.jsx:57-65 | An answered file question shows "File: " and the name, or "File: undefined" when it holds a string; an unanswered one shows the raw value; a select answer yields the first matching option's label (or the option object itself, whose rendering throws), or the raw value when no option matches; anything else shows the raw value |
| FormEngine.HandleInputSubmit | convoform/src/components/FormEngine.jsx:51-82 | The value is stored under the current question's id with all other answers unchanged; the displayed answer is appended; the step advances, or after the last question the summary opens with the review message |
| FormEngine.HandleEdit | convoform/src/components/FormEngine.jsx:84-87 | Editing jumps to the given step and hides the summary; answers and transcript are untouched |
| FormEngine.HandleSubmit | convoform/src/components/FormEngine.jsx:89-100 | Submitting completes the session, appends one thank-you message and hands over exactly the stored answers |
| FormEngine.ViewOf | convoform/src/components/FormEngine.jsx:102-134 | Nothing is offered once completed; the summary exactly while it is shown and not completed; otherwise the input for the current step if it names a question |
| FormEngine.AnswerStep | convoform/src/components/FormEngine.jsx:28-82 | Submitting an answer, then running the question effect, only while an input is shown: the value is stored under the current id with every other answer and the completion flag unchanged; the displayed answer is appended; before the last question the step advances and the next prompt follows unless a bot message already has its text; after the last question the summary opens with the review message; without an input nothing changes |
| FormEngine.EditStep | convoform/src/components/FormEngine.jsx:28-87 | Pressing a shown Edit button, then running the question effect: the step becomes the button's index, the summary is hidden, and only that step's prompt is appended, unless a bot message already has its text; answers and completion stay; when no such button is shown nothing changes |
| FormEngine.ConfirmStep | convoform/src/components/FormEngine.jsx:89-100 | Pressing Submit in the summary completes the session and appends exactly the thank-you message; answers, step and summary flag stay; without the summary (or once completed) nothing changes |
| FormEngine.ProgressStep | convoform/src/components/FormEngine.jsx:138-141 | Outside the summary the progress step is the current question's number (step + 1), in the summary it is the number of questions; while the step names a question it lies between 1 and that number, and equals it exactly in the summary or on the last question |
| FormEngine.Step | convoform/src/components/FormEngine.jsx:28-100 | An action whose control is not shown changes nothing; an answer stores its value, appends the displayed answer and either advances with the next unseen prompt or opens the summary with the review message; an Edit jumps to its index with the summary hidden and that step's unseen prompt appended; Submit completes with the thank-you message and keeps the step and summary flag; the transcript only grows, only an answer changes the answers and only Submit changes the completion flag |
| EngineProperties.StartFollows | convoform/src/components/FormEngine.jsx:18-42 | The mounted session satisfies the reachable-session invariant |
| EngineProperties.AnswerKeys | convoform/src/components/FormEngine.jsx:51-54 | With unique ids, a submission keeps the answer keys equal to the ids of a prefix of the questions, growing it only when the current question is the first unanswered one |
| EngineProperties.AnswerFollows | convoform/src/components/FormEngine.jsx:51-82 | A submission preserves the reachable-session invariant |
| EngineProperties.EditFollows | convoform/src/components/FormEngine.jsx:84-87 | Pressing a shown Edit button preserves the reachable-session invariant |
| EngineProperties.StepFollows | convoform/src/components/FormEngine.jsx:51-134 | Every user action preserves the reachable-session invariant |
| EngineProperties.RunFollows | convoform/src/components/FormEngine.jsx:51-134 | Every sequence of user actions preserves the reachable-session invariant |
| EngineProperties.RowsFollowQuestions | convoform/src/components/Summary.jsx:16-27 | In an invariant session each row's Edit index is its question's index, and the Edit indices are exactly the answered positions |
| EngineProperties.EditTargetsShownQuestion | convoform/src/components/Summary.jsx:16-27 | With unique ids, none of them integer-like, in every reachable session each row's Edit button returns to the very question the row shows |
| EngineProperties.EditResubmit | convoform/src/components/FormEngine.jsx:28-87 | After an edit from the summary, the next submission is exactly a submission at the edited step: the following prompt is already in the transcript, so no prompt is added |
| EngineProperties.EditThenAnswer | convoform/src/components/FormEngine.jsx:51-87 | Edit then answer replaces only that question's answer and keeps every key in place; it appends only the displayed answer and continues at the next question, or reopens the summary after the last |
| EngineProperties.ProgressInRange | convoform/src/components/FormEngine.jsx:138-141 | The progress bar's step lies between 1 and the number of questions and reaches it exactly on the last question or in the summary |
| EngineProperties.RunAppend | convoform/src/components/FormEngine.jsx:51-100 | Running one more action is one more step after the run |
| EngineProperties.FirstPassReachesSummary | convoform/src/components/FormEngine.jsx:51-82 | Answering every question once in order from mounting reaches the summary with one answer per question, keyed in question order, each the value given |
| FormEngine.Run | convoform/src/components/FormEngine.jsx:28-105 | Any sequence of actions, each followed by the question effect with the half-second delay taken as immediate, keeps every message already shown in place, and leaves a completed session unchanged |
| EngineProperties.GreetingStays | convoform/src/components/FormEngine.jsx:18-26 | Every reachable transcript begins with the greeting |
| EngineProperties.CountBotAbsent | convoform/src/components/FormEngine.jsx:34-36 | A bot text is counted zero times exactly when no bot message has it |
| EngineProperties.StartPromptsOnce | convoform/src/components/FormEngine.jsx:18-42 | On mounting, no prompt appears twice, for every prompt text other than the title, description, review and thank-you texts (a first prompt equal to the title or description does appear twice) |
| EngineProperties.AskKeepsOnce | convoform/src/components/FormEngine.jsx:34-40 | The de-duplicating effect never takes a text's count above one |
| EngineProperties.StepPromptsOnce | convoform/src/components/FormEngine.jsx:28-100 | Every user action keeps each prompt to at most one appearance |
| EngineProperties.RunPromptsOnce | convoform/src/components/FormEngine.jsx:28-100 | Every sequence of actions keeps each prompt to at most one appearance |
| EngineProperties.PromptsNeverRepeat | convoform/src/components/FormEngine.jsx:28-42 | In every reachable session each prompt whose text differs from the title, description, review and thank-you texts has been shown at most once, however often its step was revisited |
| EngineProperties.DuplicateIdsMisdirectEdit | convoform/src/components/Summary.jsx:16-27 | With questions "x", "x", "y" answered in turn, the row showing the third question passes Edit index 1, which is the second question |
| ExportData.HeaderField | convoform/src/utils/exportData.js:13 | A header field is the question text with each comma turned into a space, so it holds no comma |
| ExportData.DataField | convoform/src/utils/exportData.js:16-31 | An answered file question gives the file name, and the empty string when it holds a string (its `name` is undefined and `join` renders it empty); a File under any other question gives "[object File]"; a falsy answer gives the empty string; any other answer gives its text with commas turned into spaces |
| ExportData.CsvHeaders | convoform/src/utils/exportData.js:13 | One header field per question, in question order |
| ExportData.CsvData | convoform/src/utils/exportData.js:16-26 | One data field per question, in question order, answered or not |
| ExportData.CsvRowsSplitBack | convoform/src/utils/exportData.js:29-32 | The header row splits at commas back into exactly its fields; so does the data row when no question is a file question |
| ExportData.CsvText | convoform/src/utils/exportData.js:29-32 | Without newlines in the fields the CSV text is exactly two lines, the joined header row and the joined data row |
| ExportData.JsonValue | convoform/src/utils/exportData.js:47-54 | An answered file question records its file name, and undefined when it holds a string; a falsy answer records the empty string; any other answer is recorded as is |
| ExportData.JsonPairs | convoform/src/utils/exportData.js:46-57 | One text/value assignment per question, in question order |
| ExportData.JsonMapping | convoform/src/utils/exportData.js:46-57 | The exported object's keys are exactly the question texts, and a question's text maps to its recorded answer unless a later question reuses the text |
| ExportData.JsonKeysInQuestionOrder | convoform/src/utils/exportData.js:46-57 | With distinct texts the exported object lists every question's text with its recorded answer, in question order |
| ExportData.Serialized | convoform/src/utils/exportData.js:60 | The serialised properties are exactly the object's properties whose value is not undefined, and all of them when none is undefined |
| ExportData.SerializedAppend | convoform/src/utils/exportData.js:60 | Serialisation keeps order: the kept properties of a + b are those of a followed by those of b |
| ExportData.JsonTextInQuestionOrder | convoform/src/utils/exportData.js:46-60 | With distinct texts the JSON text lists the exported answers in question order, skipping only undefined values, and skipping none when no file question holds a text answer |
| ExportData.AnsweredTextQuestionSerialized | convoform/src/utils/exportData.js:46-60 | A non-file question whose text is not reused always appears in the JSON with its answer, or the empty string when unanswered |
| SendEmail.KeysDistinct | convoform/src/utils/sendEmail.js:37-41 | `question_` keys, `answer_` keys and `form_summary` never collide, and each of the first two determines its id |
| SendEmail.EmailAnswer | convoform/src/utils/sendEmail.js:33-42 | An answered file question sends its file name, and undefined when it holds a string; a falsy answer sends "No answer provided"; any other answer is sent as is and is never falsy |
| SendEmail.EmailPairs | convoform/src/utils/sendEmail.js:32-45 | Two assignments per question, in question order: its text under `question_<id>`, then its email answer under `answer_<id>` |
| SendEmail.FormattedAnswers | convoform/src/utils/sendEmail.js:32-45 | The formatted answers hold exactly the `question_` and `answer_` keys of the questions, and a question whose id is not reused later has its text and its email answer under its two keys |
| SendEmail.FormattedOrder | convoform/src/utils/sendEmail.js:32-45 | With unique ids the formatted answers hold exactly two entries per question, alternating question and answer keys in question order |
| SendEmail.FormSummary | convoform/src/utils/sendEmail.js:51-58 | One summary entry per question, in question order, with its text and its stored answer or "No answer provided" |
| SendEmail.EmailParams | convoform/src/utils/sendEmail.js:48-59 | `form_summary` holds the summary list; every other key takes the formatted answers' value if present and otherwise the template parameter's |
| SendEmail.ParamsPrecedence | convoform/src/utils/sendEmail.js:48-59 | A question's own entries override template parameters of the same name; any template parameter no question or the summary claims passes through unchanged |
| SendEmail.EmailAgreesWithReview | convoform/src/utils/sendEmail.js:35-42 | The email's answer equals the review panel's exactly unless the question is an unanswered file question |
| SendEmail.SummaryKeepsFileObject | convoform/src/utils/sendEmail.js:51-58 | For an answered file question `form_summary` carries the File object (which its JSON text shows as `{}`) while `answer_<id>` carries its name |

## Left out

- Rendering, animation, scrolling, avatars, the chat bubble and the progress bar's percentage
  are presentation only; only the progress bar's step is modelled.
- The half-second delay before advancing is taken as immediate. No user action is modelled as
  arriving inside that window.
- React's double-invocation of effects in development mode is not modelled.
- The greeting effect re-runs whenever the transcript's length changes, but it acts only on mount,
  when the transcript is empty. The model runs it once there and folds it into `FormEngine.Start`.
- `isNaN(Number(value))` is a parameter rather than a model of JavaScript number parsing.
- A custom validator's result is modelled as a string (the empty string for no error). Other
  truthy or falsy returns are not modelled.
- `Object.keys` and `JSON.stringify` list integer-like keys first, in ascending order. The model
  keeps plain insertion order. It agrees whenever no question id and, for the JSON export, no
  question text is integer-like.
- Question ids and option values are modelled as strings. A configuration may give a number
  (`"id": 1`): the answer is then stored under the key "1", `q.id === key` in the summary never
  holds, and that question gets no row and no Edit button. A numeric option value never equals
  the string a select hands on, so the source then shows the raw value where the model shows the
  label. Neither case is modelled.
- Rendering a plain object throws in React. A select option object without a label is rendered as
  the object itself, both in the option list and in the transcript bubble, and a File answer under
  a non-file row of the summary (possible only with repeated ids) is rendered as the File. Each
  crashes the form. The model yields the object (`FormEngine.OptionLabel`,
  `Summary.DisplayedAnswer`) and does not model the crash.
- `answers[q.id]` also reads members inherited from `Object.prototype`, for ids such as
  "constructor" or "toString". `Dicts.Lookup` reads a missing key as undefined, so the model agrees
  only when no question id names such a member.
- The file download (Blob, object URL, anchor click) and the layout of `JSON.stringify` are not
  modelled. The JSON output is modelled as its ordered list of properties; the CSV text is
  modelled exactly.
- The `form_summary` list is modelled as the list of entries, not as its JSON text (in which a
  File object appears as `{}`).
- Email delivery (`emailjs.init`, `emailjs.send`) and its failure path are external calls and are
  not modelled. `SendEmail.EmailParams` is what would be handed to the service.
- The application shell that loads the configuration and wires the utilities to buttons is not
  part of this model.
- The select input's placeholder option and the date and textarea inputs differ from a text
  input only in rendering.

=== FILE: dicts.dfy ===
/**
 A plain JavaScript object seen as its own string-keyed properties in insertion
 order. Assigning to an existing key keeps its position; assigning to a new key
 appends it. Object spread (`{...a, ...b}`) is a sequence of such assignments.
 The integer-like-key ordering of `Object.keys` is not modelled.
 */
module Dicts {
  import opened Values

  /** No key occurs twice: the defining property of an object's own keys. */
  predicate UniqueKeys<V>(m: seq<(string, V)>) {
    forall i, j | 0 <= i < j < |m| :: KeyAt(m, i) != KeyAt(m, j)
  }

  /** The key at position i. */
  function KeyAt<V>(m: seq<(string, V)>, i: nat): string
    requires i < |m|
  {
    m[i].0
  }

  type Dict<V> = m: seq<(string, V)> | UniqueKeys(m) witness []

  /** `Object.keys(m)` */
  function Keys<V>(m: seq<(string, V)>): (ks: seq<string>)
    ensures |ks| == |m|
    ensures forall i | 0 <= i < |m| :: ks[i] == m[i].0
  {
    seq(|m|, i requires 0 <= i < |m| => m[i].0)
  }

  /** `m[k]`, None standing for a missing property. */
  function Get<V>(m: seq<(string, V)>, k: string): (r: Option<V>)
    ensures r.Some? <==> k in Keys(m)
    ensures r.Some? ==> exists i | 0 <= i < |m| :: m[i] == (k, r.value)
  {
    if |m| == 0 then None
    else if m[0].0 == k then Some(m[0].1)
    else
      var r := Get(m[1..], k);
      assert r.Some? ==> forall i | 0 <= i < |m| - 1 :: m[1..][i] == m[i + 1];
      assert k in Keys(m) <==> k in Keys(m[1..]) by {
        if k in Keys(m) {
          var i :| 0 <= i < |m| && Keys(m)[i] == k;
          assert Keys(m[1..])[i - 1] == k;
        }
        if k in Keys(m[1..]) {
          var i :| 0 <= i < |m| - 1 && Keys(m[1..])[i] == k;
          assert Keys(m)[i + 1] == k;
        }
      }
      r
  }

  /** Two positions of a dictionary hold different keys. */
  lemma UniqueDistinct<V>(m: seq<(string, V)>, i: nat, j: nat)
    requires UniqueKeys(m) && i < |m| && j < |m| && i != j
    ensures m[i].0 != m[j].0
  {
    if i < j {
      assert KeyAt(m, i) != KeyAt(m, j);
    } else {
      assert KeyAt(m, j) != KeyAt(m, i);
    }
  }

  /** Dropping the first entry keeps the keys unique, and the first key does not recur. */
  lemma UniqueTail<V>(m: seq<(string, V)>)
    requires UniqueKeys(m) && |m| > 0
    ensures UniqueKeys(m[1..]) && m[0].0 !in Keys(m[1..])
  {
    var tail := m[1..];
    forall i, j | 0 <= i < j < |tail|
      ensures KeyAt(tail, i) != KeyAt(tail, j)
    {
      UniqueDistinct(m, i + 1, j + 1);
    }
    forall j | 0 <= j < |tail|
      ensures Keys(tail)[j] != m[0].0
    {
      UniqueDistinct(m, 0, j + 1);
    }
  }

  /** In a dictionary no key is assigned twice. */
  lemma UniqueLast<V>(m: seq<(string, V)>, i: nat)
    requires UniqueKeys(m) && i < |m|
    ensures LastAssigned(m, i)
  {
    forall j | i < j < |m|
      ensures m[j].0 != m[i].0
    {
      UniqueDistinct(m, i, j);
    }
  }

  /** In a dictionary, the value found for the key at position i is the one stored there. */
  lemma {:induction false} GetAt<V>(m: Dict<V>, i: nat)
    requires i < |m|
    ensures Get(m, m[i].0) == Some(m[i].1)
  {
    if i > 0 {
      UniqueDistinct(m, 0, i);
      UniqueTail(m);
      var tail: Dict<V> := m[1..];
      assert tail[i - 1] == m[i];
      GetAt(tail, i - 1);
    }
  }

  /** `answers[k]` as JavaScript reads it: a missing key reads as undefined. */
  function Lookup(m: Dict<Value>, k: string): Value {
    match Get(m, k)
    case Some(v) => v
    case None => Undefined
  }

  /** `m[k] = v` (equivalently `{...m, [k]: v}`). */
  function Put<V>(m: Dict<V>, k: string, v: V): (r: Dict<V>)
    ensures Get(r, k) == Some(v)
    ensures forall k' | k' != k :: Get(r, k') == Get(m, k')
  {
    UpsertKeys(m, k, v);
    UpsertGet(m, k, v);
    Upsert(m, k, v)
  }

  /** `m[k] = v` keeps an existing key in its place and appends a new key at the end. */
  lemma PutOrder<V>(m: Dict<V>, k: string, v: V)
    ensures Keys(Put(m, k, v)) == if k in Keys(m) then Keys(m) else Keys(m) + [k]
  {
    UpsertKeys(m, k, v);
  }

  /** After `m[k] = v` the keys are the old keys and k. */
  lemma PutKeys<V>(m: Dict<V>, k: string, v: V, t: string)
    ensures t in Keys(Put(m, k, v)) <==> t in Keys(m) || t == k
  {
    PutOrder(m, k, v);
  }

  function Upsert<V>(m: seq<(string, V)>, k: string, v: V): seq<(string, V)> {
    if |m| == 0 then [(k, v)]
    else if m[0].0 == k then [(k, v)] + m[1..]
    else [m[0]] + Upsert(m[1..], k, v)
  }

  lemma KeysCons<V>(x: (string, V), m: seq<(string, V)>)
    ensures Keys([x] + m) == [x.0] + Keys(m)
  {
  }

  lemma GetCons<V>(x: (string, V), m: seq<(string, V)>, k: string)
    ensures Get([x] + m, k) == if x.0 == k then Some(x.1) else Get(m, k)
  {
    assert ([x] + m)[1..] == m;
  }

  /** Unique keys, in a sequence whose keys are known. */
  lemma UniqueFromKeys<V>(m: seq<(string, V)>, ks: seq<string>)
    requires Keys(m) == ks
    requires forall i, j | 0 <= i < j < |ks| :: ks[i] != ks[j]
    ensures UniqueKeys(m)
  {
    assert forall i | 0 <= i < |m| :: KeyAt(m, i) == ks[i];
  }

  lemma {:induction false} UpsertKeys<V>(m: seq<(string, V)>, k: string, v: V)
    requires UniqueKeys(m)
    ensures Keys(Upsert(m, k, v)) == if k in Keys(m) then Keys(m) else Keys(m) + [k]
    ensures UniqueKeys(Upsert(m, k, v))
  {
    UpsertKeyOrder(m, k, v);
    var ks := Keys(Upsert(m, k, v));
    assert forall i | 0 <= i < |m| :: Keys(m)[i] == m[i].0;
    if k !in Keys(m) {
      assert forall i | 0 <= i < |m| :: ks[i] == m[i].0;
      assert ks[|m|] == k;
    }
    forall i, j | 0 <= i < j < |ks|
      ensures ks[i] != ks[j]
    {
      if j < |m| {
        UniqueDistinct(m, i, j);
      }
    }
    UniqueFromKeys(Upsert(m, k, v), ks);
  }

  lemma {:induction false} UpsertKeyOrder<V>(m: seq<(string, V)>, k: string, v: V)
    ensures Keys(Upsert(m, k, v)) == if k in Keys(m) then Keys(m) else Keys(m) + [k]
  {
    if |m| == 0 {
    } else if m[0].0 == k {
      KeysCons((k, v), m[1..]);
      KeysCons(m[0], m[1..]);
      assert m == [m[0]] + m[1..];
    } else {
      var tail := m[1..];
      assert m == [m[0]] + tail;
      UpsertKeyOrder(tail, k, v);
      KeysCons(m[0], tail);
      KeysCons(m[0], Upsert(tail, k, v));
      assert k in Keys(m) <==> k in Keys(tail);
    }
  }

  lemma {:induction false} UpsertGet<V>(m: seq<(string, V)>, k: string, v: V)
    ensures Get(Upsert(m, k, v), k) == Some(v)
    ensures forall k' | k' != k :: Get(Upsert(m, k, v), k') == Get(m, k')
  {
    if |m| == 0 {
      assert Get([(k, v)], k) == Some(v);
      forall k' | k' != k
        ensures Get(Upsert(m, k, v), k') == Get(m, k')
      {
        GetCons((k, v), [], k');
      }
    } else if m[0].0 == k {
      forall k' | k' != k
        ensures Get(Upsert(m, k, v), k') == Get(m, k')
      {
        GetCons((k, v), m[1..], k');
        GetCons(m[0], m[1..], k');
        assert m == [m[0]] + m[1..];
      }
      GetCons((k, v), m[1..], k);
    } else {
      var tail := m[1..];
      assert m == [m[0]] + tail;
      UpsertGet(tail, k, v);
      GetCons(m[0], Upsert(tail, k, v), k);
      forall k' | k' != k
        ensures Get(Upsert(m, k, v), k') == Get(m, k')
      {
        GetCons(m[0], Upsert(tail, k, v), k');
        GetCons(m[0], tail, k');
      }
    }
  }

  /** The assignments `acc[k] = v` for the pairs (k, v) in order, as `reduce` over them or a
      spread of the pairs performs them. */
  function Assign<V>(acc: Dict<V>, ps: seq<(string, V)>): Dict<V>
    decreases |ps|
  {
    if |ps| == 0 then acc else Assign(Put(acc, ps[0].0, ps[0].1), ps[1..])
  }

  /** A key of a non-empty list is its first key or a key of the rest. */
  lemma KeysFirst<V>(ps: seq<(string, V)>, t: string)
    requires |ps| > 0
    ensures t in Keys(ps) <==> t == ps[0].0 || t in Keys(ps[1..])
  {
    KeysCons(ps[0], ps[1..]);
    assert [ps[0]] + ps[1..] == ps;
  }

  /** The keys after the assignments are the old keys and the keys assigned. */
  lemma {:induction false} AssignKeys<V>(acc: Dict<V>, ps: seq<(string, V)>, t: string)
    ensures t in Keys(Assign(acc, ps)) <==> t in Keys(acc) || t in Keys(ps)
    decreases |ps|
  {
    if |ps| > 0 {
      var next := Put(acc, ps[0].0, ps[0].1);
      AssignKeys(next, ps[1..], t);
      PutKeys(acc, ps[0].0, ps[0].1, t);
      KeysFirst(ps, t);
    }
  }

  /** A key that is never assigned keeps its value. */
  lemma {:induction false} AssignUntouched<V>(acc: Dict<V>, ps: seq<(string, V)>, k: string)
    requires k !in Keys(ps)
    ensures Get(Assign(acc, ps), k) == Get(acc, k)
    decreases |ps|
  {
    if |ps| > 0 {
      KeysCons(ps[0], ps[1..]);
      assert [ps[0]] + ps[1..] == ps;
      AssignUntouched(Put(acc, ps[0].0, ps[0].1), ps[1..], k);
    }
  }

  /** Pair i's key is not assigned again later. */
  predicate LastAssigned<V>(ps: seq<(string, V)>, i: nat)
    requires i < |ps|
  {
    forall j | i < j < |ps| :: ps[j].0 != ps[i].0
  }

  /** A first pair whose key is never reassigned keeps its value to the end. */
  lemma AssignFirstKept<V>(acc: Dict<V>, ps: seq<(string, V)>)
    requires |ps| > 0 && LastAssigned(ps, 0)
    ensures Get(Assign(acc, ps), ps[0].0) == Some(ps[0].1)
  {
    var tail := ps[1..];
    var next := Put(acc, ps[0].0, ps[0].1);
    assert Assign(acc, ps) == Assign(next, tail);
    assert ps[0].0 !in Keys(tail) by {
      assert forall j | 0 <= j < |tail| :: Keys(tail)[j] == ps[j + 1].0;
    }
    AssignUntouched(next, tail, ps[0].0);
  }

  /** Dropping the first pair shifts a last assignment down by one. */
  lemma LastAssignedTail<V>(ps: seq<(string, V)>, i: nat)
    requires 0 < i < |ps| && LastAssigned(ps, i)
    ensures ps[1..][i - 1] == ps[i] && LastAssigned(ps[1..], i - 1)
  {
    var tail := ps[1..];
    forall j | i - 1 < j < |tail|
      ensures tail[j].0 != tail[i - 1].0
    {
      assert tail[j] == ps[j + 1];
    }
  }

  /** One step of the fold: assign the first pair, then the rest. */
  lemma AssignUnfold<V>(acc: Dict<V>, ps: seq<(string, V)>)
    requires |ps| > 0
    ensures Assign(acc, ps) == Assign(Put(acc, ps[0].0, ps[0].1), ps[1..])
  {
  }

  /** The last assignment to a key wins. */
  lemma {:induction false} AssignLastWins<V>(acc: Dict<V>, ps: seq<(string, V)>, i: nat)
    requires i < |ps| && LastAssigned(ps, i)
    ensures Get(Assign(acc, ps), ps[i].0) == Some(ps[i].1)
    decreases |ps|
  {
    if i == 0 {
      AssignFirstKept(acc, ps);
    } else {
      LastAssignedTail(ps, i);
      AssignLastWins(Put(acc, ps[0].0, ps[0].1), ps[1..], i - 1);
      AssignUnfold(acc, ps);
    }
  }

  lemma AppendAssoc<T>(a: seq<T>, b: seq<T>, c: seq<T>)
    ensures (a + b) + c == a + (b + c)
  {
  }

  /** After assigning the first pair, the remaining keys are still new. */
  lemma TailStaysFresh<V>(acc: seq<(string, V)>, ps: seq<(string, V)>)
    requires |ps| > 0 && UniqueKeys(ps)
    requires forall t | t in Keys(ps) :: t !in Keys(acc)
    ensures forall t | t in Keys(ps[1..]) :: t !in Keys(acc) + [ps[0].0]
  {
    var tail := ps[1..];
    forall t | t in Keys(tail)
      ensures t !in Keys(acc) + [ps[0].0]
    {
      var j :| 0 <= j < |tail| && Keys(tail)[j] == t;
      assert tail[j] == ps[j + 1];
      assert Keys(ps)[j + 1] == t;
      UniqueDistinct(ps, 0, j + 1);
    }
  }

  /** Assigning distinct new keys appends them, in the order assigned. */
  lemma {:induction false} AssignKeyOrder<V>(acc: Dict<V>, ps: seq<(string, V)>)
    requires UniqueKeys(ps)
    requires forall t | t in Keys(ps) :: t !in Keys(acc)
    ensures Keys(Assign(acc, ps)) == Keys(acc) + Keys(ps)
    decreases |ps|
  {
    if |ps| > 0 {
      var x, tail := ps[0], ps[1..];
      var next := Put(acc, x.0, x.1);
      assert Keys(ps)[0] == x.0;
      PutOrder(acc, x.0, x.1);
      TailStaysFresh(acc, ps);
      UniqueTail(ps);
      AssignKeyOrder(next, tail);
      assert Keys(ps) == [x.0] + Keys(tail) by {
        KeysCons(x, tail);
        assert [x] + tail == ps;
      }
      AppendAssoc(Keys(acc), [x.0], Keys(tail));
    }
  }

  /** `{...m, ...e}`: every key of e takes e's value; every other key keeps m's. */
  function PutAll<V>(m: Dict<V>, e: Dict<V>): (r: Dict<V>)
    ensures forall k :: Get(r, k) == if Get(e, k).Some? then Get(e, k) else Get(m, k)
  {
    forall k
      ensures Get(Assign(m, e), k) == if Get(e, k).Some? then Get(e, k) else Get(m, k)
    {
      if Get(e, k).Some? {
        var i :| 0 <= i < |e| && Keys(e)[i] == k;
        GetAt(e, i);
        UniqueLast(e, i);
        AssignLastWins(m, e, i);
      } else {
        AssignUntouched(m, e, k);
      }
    }
    Assign(m, e)
  }
}

=== FILE: engine_properties.dfy ===
/**
 Properties of every session the engine can reach from mounting through any
 sequence of user actions: the answer keys follow question order (so a summary
 row's position is its question's index), prompts are never asked twice, the
 transcript only grows, the progress step stays in range, and a completed
 session accepts nothing more.
 */
module EngineProperties {
  import opened Values
  import opened Dicts
  import opened Forms
  import opened Summary
  import opened FormEngine

  /** The session reached from mounting after the actions es. */
  function Reachable(cfg: Config, es: seq<Event>): Session {
    Run(cfg, Start(cfg), es)
  }

  /** The shape of every reachable session when question ids are unique: the answer keys are the
      ids of the first |answers| questions in question order, the current step is at most one past
      the last answered question, the summary is shown exactly after every question is answered,
      and every question up to the first unanswered one has been asked. */
  predicate KeysFollowQuestions(cfg: Config, s: Session) {
    var n := |cfg.steps|;
    && |s.answers| <= n
    && Keys(s.answers) == Ids(cfg.steps)[..|s.answers|]
    && s.step <= |s.answers|
    && (s.showSummary ==> |s.answers| == n)
    && (n > 0 && !s.showSummary ==> s.step < n)
    && (s.completed ==> s.showSummary)
    && (forall j | 0 <= j < n && j <= |s.answers| :: Bot(cfg.steps[j].text) in s.conversation)
  }

  lemma StartFollows(cfg: Config)
    ensures KeysFollowQuestions(cfg, Start(cfg))
  {
  }

  /** Answering the first unanswered question appends its id to the answer keys. */
  lemma AnswerNewKey(cfg: Config, s: Session, v: Value)
    requires UniqueIds(cfg.steps) && KeysFollowQuestions(cfg, s)
    requires ViewOf(cfg, s).Asking? && s.step == |s.answers|
    ensures Keys(HandleInputSubmit(cfg, s, v).answers) == Ids(cfg.steps)[..s.step + 1]
  {
    var ids := Ids(cfg.steps);
    var m := |s.answers|;
    var id := cfg.steps[m].id;
    assert HandleInputSubmit(cfg, s, v).answers == Put(s.answers, id, v);
    NextIdIsNew(cfg, s);
    PutOrder(s.answers, id, v);
    assert ids[..m + 1] == ids[..m] + [id];
  }

  /** With unique ids, the first unanswered question's id is not yet an answer key. */
  lemma NextIdIsNew(cfg: Config, s: Session)
    requires UniqueIds(cfg.steps) && KeysFollowQuestions(cfg, s)
    requires |s.answers| < |cfg.steps|
    ensures cfg.steps[|s.answers|].id !in Keys(s.answers)
  {
    var ids := Ids(cfg.steps);
    var m := |s.answers|;
    forall i | 0 <= i < m
      ensures Keys(s.answers)[i] != cfg.steps[m].id
    {
      assert Keys(s.answers)[i] == ids[i];
    }
  }

  /** Answering an already answered question keeps the answer keys. */
  lemma AnswerOldKey(cfg: Config, s: Session, v: Value)
    requires KeysFollowQuestions(cfg, s)
    requires ViewOf(cfg, s).Asking? && s.step < |s.answers|
    ensures Keys(HandleInputSubmit(cfg, s, v).answers) == Keys(s.answers)
  {
    assert cfg.steps[s.step].id == Keys(s.answers)[s.step];
    PutOrder(s.answers, cfg.steps[s.step].id, v);
  }

  /** The answer keys after a submission at the current step still follow question order. */
  lemma AnswerKeys(cfg: Config, s: Session, v: Value)
    requires UniqueIds(cfg.steps) && KeysFollowQuestions(cfg, s)
    requires ViewOf(cfg, s).Asking?
    ensures
      var t := HandleInputSubmit(cfg, s, v);
      && |t.answers| == (if s.step == |s.answers| then s.step + 1 else |s.answers|)
      && Keys(t.answers) == Ids(cfg.steps)[..|t.answers|]
  {
    var t := HandleInputSubmit(cfg, s, v);
    assert |t.answers| == |Keys(t.answers)|;
    if s.step == |s.answers| {
      AnswerNewKey(cfg, s, v);
    } else {
      AnswerOldKey(cfg, s, v);
    }
  }

  lemma {:induction false} AnswerFollows(cfg: Config, s: Session, v: Value)
    requires UniqueIds(cfg.steps) && KeysFollowQuestions(cfg, s)
    requires ViewOf(cfg, s).Asking?
    ensures KeysFollowQuestions(cfg, Step(cfg, s, Answer(v)))
  {
    var t := HandleInputSubmit(cfg, s, v);
    var r := Step(cfg, s, Answer(v));
    assert r == AskCurrent(cfg, t, t.conversation);
    AnswerKeys(cfg, s, v);
    assert r.answers == t.answers;
    assert s.conversation <= t.conversation <= r.conversation;
    forall j | 0 <= j < |cfg.steps| && j <= |r.answers|
      ensures Bot(cfg.steps[j].text) in r.conversation
    {
      if j <= |s.answers| {
        assert Bot(cfg.steps[j].text) in s.conversation;
      } else {
        assert j == s.step + 1 && r.step == j;
      }
    }
  }

  lemma {:induction false} EditFollows(cfg: Config, s: Session, k: nat)
    requires UniqueIds(cfg.steps) && KeysFollowQuestions(cfg, s)
    ensures KeysFollowQuestions(cfg, Step(cfg, s, Edit(k)))
  {
    var rows := Rows(s.answers, cfg.steps);
    if ViewOf(cfg, s) == Reviewing && k in EditIndices(rows) {
      var row :| row in rows && row.editIndex == k;
      assert RowOf(s.answers, cfg.steps, row);
    }
  }

  /** Every user action keeps the shape, when question ids are unique. */
  lemma {:induction false} StepFollows(cfg: Config, s: Session, e: Event)
    requires UniqueIds(cfg.steps) && KeysFollowQuestions(cfg, s)
    ensures KeysFollowQuestions(cfg, Step(cfg, s, e))
  {
    match e
    case Answer(v) =>
      if ViewOf(cfg, s).Asking? {
        AnswerFollows(cfg, s, v);
      }
    case Edit(k) =>
      EditFollows(cfg, s, k);
    case Confirm =>
  }

  lemma {:induction false} RunFollows(cfg: Config, s: Session, es: seq<Event>)
    requires UniqueIds(cfg.steps) && KeysFollowQuestions(cfg, s)
    ensures KeysFollowQuestions(cfg, Run(cfg, s, es))
    decreases |es|
  {
    if |es| > 0 {
      StepFollows(cfg, s, es[0]);
      RunFollows(cfg, Step(cfg, s, es[0]), es[1..]);
    }
  }

  /** In a session of that shape, the panel has one row per answer, in question order, and each
      row's Edit button passes exactly the index of the question the row shows. */
  lemma {:induction false} RowsFollowQuestions(cfg: Config, s: Session)
    requires UniqueIds(cfg.steps) && KeysFollowQuestions(cfg, s)
    ensures forall r | r in Rows(s.answers, cfg.steps) ::
      r.editIndex == r.question && cfg.steps[r.editIndex].id == r.key
    ensures forall i: nat :: i in EditIndices(Rows(s.answers, cfg.steps)) <==> i < |s.answers|
  {
    var rows := Rows(s.answers, cfg.steps);
    forall r | r in rows
      ensures r.editIndex == r.question && cfg.steps[r.editIndex].id == r.key
    {
      assert RowOf(s.answers, cfg.steps, r);
      assert Keys(s.answers)[r.editIndex] == r.key;
    }
    forall i | 0 <= i < |s.answers|
      ensures i in EditIndices(rows)
    {
      assert cfg.steps[i].id == Keys(s.answers)[i] == s.answers[i].0;
      var r :| r in rows && r.editIndex == i;
    }
  }

  /** The edit-targeting property of the review panel: with unique question ids, in every reachable
      session each row's Edit button jumps back to the very question that row shows. */
  lemma EditTargetsShownQuestion(cfg: Config, es: seq<Event>)
    requires UniqueIds(cfg.steps)
    ensures forall r | r in Rows(Reachable(cfg, es).answers, cfg.steps) ::
      r.editIndex == r.question && cfg.steps[r.editIndex].id == r.key
  {
    StartFollows(cfg);
    RunFollows(cfg, Start(cfg), es);
    RowsFollowQuestions(cfg, Reachable(cfg, es));
  }

  /** After an edit from the summary, submitting a value is exactly the submission at the edited
      step: the next prompt is already in the transcript, so none is added. */
  lemma EditResubmit(cfg: Config, s: Session, k: nat, v: Value)
    requires UniqueIds(cfg.steps) && KeysFollowQuestions(cfg, s)
    requires ViewOf(cfg, s) == Reviewing && k in EditIndices(Rows(s.answers, cfg.steps))
    ensures k < |s.answers| && k < |cfg.steps| && cfg.steps[k].id == Keys(s.answers)[k]
    ensures Step(cfg, s, Edit(k)) == s.(step := k, showSummary := false)
    ensures Step(cfg, Step(cfg, s, Edit(k)), Answer(v)) == HandleInputSubmit(cfg, s.(step := k, showSummary := false), v)
  {
    RowsFollowQuestions(cfg, s);
    var t := Step(cfg, s, Edit(k));
    assert Bot(cfg.steps[k].text) in s.conversation;
    assert t == s.(step := k, showSummary := false);
    var w := HandleInputSubmit(cfg, t, v);
    if k + 1 < |cfg.steps| {
      assert Bot(cfg.steps[k + 1].text) in s.conversation;
      assert Bot(cfg.steps[k + 1].text) in w.conversation;
    }
  }

  /** Editing an answer and submitting a new value replaces only that question's answer, keeps every
      key in place, appends only the answer (no prompt is asked again), and continues with the next
      question, or returns to the summary after the last. */
  lemma {:induction false} EditThenAnswer(cfg: Config, s: Session, k: nat, v: Value)
    requires UniqueIds(cfg.steps) && KeysFollowQuestions(cfg, s)
    requires ViewOf(cfg, s) == Reviewing && k in EditIndices(Rows(s.answers, cfg.steps))
    ensures k < |cfg.steps|
    ensures Step(cfg, s, Edit(k)) == s.(step := k, showSummary := false)
    ensures
      var u := Step(cfg, Step(cfg, s, Edit(k)), Answer(v));
      && Keys(u.answers) == Keys(s.answers)
      && Get(u.answers, cfg.steps[k].id) == Some(v)
      && (forall key | key != cfg.steps[k].id :: Get(u.answers, key) == Get(s.answers, key))
      && (k + 1 < |cfg.steps| ==>
            && u.step == k + 1 && !u.showSummary
            && u.conversation == s.conversation + [User(DisplayValue(cfg.steps[k], v))])
      && (k + 1 == |cfg.steps| ==>
            && u.step == k && u.showSummary
            && u.conversation == s.conversation + [User(DisplayValue(cfg.steps[k], v)), Bot(ReviewMessage)])
  {
    EditResubmit(cfg, s, k, v);
    var w := HandleInputSubmit(cfg, s.(step := k, showSummary := false), v);
    PutOrder(s.answers, cfg.steps[k].id, v);
    assert w.answers == Put(s.answers, cfg.steps[k].id, v);
  }

  /** The step the progress bar shows lies between 1 and the number of questions, and reaches the
      number of questions exactly on the last question or in the summary. */
  lemma ProgressInRange(cfg: Config, s: Session)
    requires KeysFollowQuestions(cfg, s) && |cfg.steps| > 0
    ensures 1 <= ProgressStep(cfg, s) <= |cfg.steps|
    ensures ProgressStep(cfg, s) == |cfg.steps| <==> s.showSummary || s.step + 1 == |cfg.steps|
  {
  }

  /** Answering every question once, in order, from a freshly mounted form. */
  function AnswerAll(vs: seq<Value>): (es: seq<Event>)
    ensures |es| == |vs|
    ensures forall i | 0 <= i < |vs| :: es[i] == Answer(vs[i])
  {
    seq(|vs|, i requires 0 <= i < |vs| => Answer(vs[i]))
  }

  lemma {:induction false} RunAppend(cfg: Config, s: Session, es: seq<Event>, e: Event)
    ensures Run(cfg, s, es + [e]) == Step(cfg, Run(cfg, s, es), e)
    decreases |es|
  {
    if |es| == 0 {
      assert es + [e] == [e];
    } else {
      assert (es + [e])[1..] == es[1..] + [e];
      RunAppend(cfg, Step(cfg, s, es[0]), es[1..], e);
    }
  }

  /** The state after the first i answers of a first pass over the questions vs answers. */
  predicate FirstPassAt(cfg: Config, vs: seq<Value>, i: nat, s: Session)
    requires |vs| == |cfg.steps| && i <= |vs|
  {
    && KeysFollowQuestions(cfg, s)
    && |s.answers| == i && !s.completed
    && (i < |vs| ==> s.step == i && !s.showSummary)
    && (i == |vs| && i > 0 ==> s.showSummary)
    && forall j | 0 <= j < i :: Get(s.answers, cfg.steps[j].id) == Some(vs[j])
  }

  /** One more answer of a first pass: the next question's value is stored as a new key. */
  lemma {:induction false} FirstPassStep(cfg: Config, vs: seq<Value>, i: nat, p: Session)
    requires UniqueIds(cfg.steps) && |vs| == |cfg.steps| && i < |vs|
    requires FirstPassAt(cfg, vs, i, p)
    ensures FirstPassAt(cfg, vs, i + 1, Step(cfg, p, Answer(vs[i])))
  {
    AnswerFollows(cfg, p, vs[i]);
    AnswerKeys(cfg, p, vs[i]);
    var s := Step(cfg, p, Answer(vs[i]));
    forall j | 0 <= j < i + 1
      ensures Get(s.answers, cfg.steps[j].id) == Some(vs[j])
    {
      if j < i {
        assert cfg.steps[j].id != cfg.steps[i].id;
      }
    }
  }

  lemma AnswerAllSnoc(vs: seq<Value>, i: nat)
    requires 0 < i <= |vs|
    ensures AnswerAll(vs[..i]) == AnswerAll(vs[..i - 1]) + [Answer(vs[i - 1])]
  {
  }

  /** After the first i answers of a first pass the session is at question i (or in the summary once
      all are answered) and holds exactly those answers, keyed in question order. */
  lemma {:induction false} FirstPassPrefix(cfg: Config, vs: seq<Value>, i: nat)
    requires UniqueIds(cfg.steps) && |vs| == |cfg.steps| && i <= |vs|
    ensures FirstPassAt(cfg, vs, i, Reachable(cfg, AnswerAll(vs[..i])))
  {
    if i == 0 {
      StartFollows(cfg);
      assert AnswerAll(vs[..0]) == [];
    } else {
      FirstPassPrefix(cfg, vs, i - 1);
      var before := AnswerAll(vs[..i - 1]);
      var p := Run(cfg, Start(cfg), before);
      AnswerAllSnoc(vs, i);
      RunAppend(cfg, Start(cfg), before, Answer(vs[i - 1]));
      FirstPassStep(cfg, vs, i - 1, p);
    }
  }

  /** A first pass over all questions ends in the summary with exactly one answer per question,
      keyed in question order, each the value given. */
  lemma FirstPassReachesSummary(cfg: Config, vs: seq<Value>)
    requires UniqueIds(cfg.steps) && |vs| == |cfg.steps| > 0
    ensures
      var s := Reachable(cfg, AnswerAll(vs));
      && ViewOf(cfg, s) == Reviewing
      && Keys(s.answers) == Ids(cfg.steps)
      && forall j | 0 <= j < |vs| :: Get(s.answers, cfg.steps[j].id) == Some(vs[j])
  {
    FirstPassPrefix(cfg, vs, |vs|);
    assert vs[..|vs|] == vs;
    var s := Reachable(cfg, AnswerAll(vs));
    assert FirstPassAt(cfg, vs, |vs|, s);
    assert Ids(cfg.steps)[..|s.answers|] == Ids(cfg.steps);
  }

  /** Every reachable transcript starts with the greeting (default texts standing in for a missing
      title or description). */
  lemma GreetingStays(cfg: Config, es: seq<Event>)
    ensures Greeting(cfg) <= Reachable(cfg, es).conversation
  {
  }

  // Prompt de-duplication.

  /** The bot texts the engine sends without de-duplication. */
  function FixedTexts(cfg: Config): set<string> {
    {TitleText(cfg), DescriptionText(cfg), ReviewMessage, ThanksMessage}
  }

  /** The number of bot messages with text t. */
  function CountBot(conv: seq<Message>, t: string): nat {
    if |conv| == 0 then 0
    else CountBot(conv[..|conv| - 1], t) + (if conv[|conv| - 1] == Bot(t) then 1 else 0)
  }

  lemma {:induction false} CountBotAbsent(conv: seq<Message>, t: string)
    ensures CountBot(conv, t) == 0 <==> Bot(t) !in conv
  {
    if |conv| > 0 {
      var init := conv[..|conv| - 1];
      CountBotAbsent(init, t);
      assert conv == init + [conv[|conv| - 1]];
    }
  }

  lemma CountBotAppend(conv: seq<Message>, m: Message, t: string)
    ensures CountBot(conv + [m], t) == CountBot(conv, t) + (if m == Bot(t) then 1 else 0)
  {
    assert (conv + [m])[..|conv|] == conv;
  }

  /** No question's prompt appears twice in the transcript, unless its text coincides with one of
      the greeting, review or thank-you texts. */
  predicate PromptsOnce(cfg: Config, s: Session) {
    forall k | 0 <= k < |cfg.steps| && cfg.steps[k].text !in FixedTexts(cfg) ::
      CountBot(s.conversation, cfg.steps[k].text) <= 1
  }

  /** A prompt text that is not one of the fixed texts does not occur in the greeting. */
  lemma GreetingLacksPrompt(cfg: Config, x: string)
    requires |cfg.steps| > 0 && x !in FixedTexts(cfg)
    ensures CountBot(Greeting(cfg), x) == 0
  {
    var g := Greeting(cfg);
    CountBotAppend([], g[0], x);
    assert [g[0]] + [g[1]] == g;
    CountBotAppend([g[0]], g[1], x);
  }

  lemma StartPromptsOnce(cfg: Config)
    ensures PromptsOnce(cfg, Start(cfg))
  {
    if |cfg.steps| > 0 {
      var g := Greeting(cfg);
      var first := Bot(cfg.steps[0].text);
      assert Start(cfg).conversation == g + [first];
      forall k | 0 <= k < |cfg.steps| && cfg.steps[k].text !in FixedTexts(cfg)
        ensures CountBot(g + [first], cfg.steps[k].text) <= 1
      {
        GreetingLacksPrompt(cfg, cfg.steps[k].text);
        CountBotAppend(g, first, cfg.steps[k].text);
      }
    }
  }

  /** Appending a message other than a bot message with text x keeps x's count. */
  lemma OtherAppendKeepsCount(conv: seq<Message>, m: Message, x: string)
    requires m != Bot(x)
    ensures CountBot(conv + [m], x) == CountBot(conv, x)
  {
    CountBotAppend(conv, m, x);
  }

  /** The question effect raises a text's count only from zero. */
  lemma {:induction false} AskKeepsOnce(cfg: Config, t: Session, x: string)
    requires CountBot(t.conversation, x) <= 1
    ensures CountBot(AskCurrent(cfg, t, t.conversation).conversation, x) <= 1
  {
    var r := AskCurrent(cfg, t, t.conversation);
    if r.conversation != t.conversation {
      var p := Bot(cfg.steps[t.step].text);
      assert r.conversation == t.conversation + [p];
      CountBotAppend(t.conversation, p, x);
      if p == Bot(x) {
        CountBotAbsent(t.conversation, x);
      }
    }
  }

  /** Every user action keeps each prompt to a single appearance. */
  lemma {:induction false} StepPromptsOnce(cfg: Config, s: Session, e: Event)
    requires PromptsOnce(cfg, s)
    ensures PromptsOnce(cfg, Step(cfg, s, e))
  {
    var r := Step(cfg, s, e);
    forall k | 0 <= k < |cfg.steps| && cfg.steps[k].text !in FixedTexts(cfg)
      ensures CountBot(r.conversation, cfg.steps[k].text) <= 1
    {
      var x := cfg.steps[k].text;
      match e
      case Answer(v) =>
        if ViewOf(cfg, s).Asking? {
          var t := HandleInputSubmit(cfg, s, v);
          var said := User(DisplayValue(cfg.steps[s.step], v));
          OtherAppendKeepsCount(s.conversation, said, x);
          if s.step + 1 == |cfg.steps| {
            OtherAppendKeepsCount(s.conversation + [said], Bot(ReviewMessage), x);
            assert t.conversation == s.conversation + [said] + [Bot(ReviewMessage)];
          }
          AskKeepsOnce(cfg, t, x);
        }
      case Edit(j) =>
        if ViewOf(cfg, s) == Reviewing && j in EditIndices(Rows(s.answers, cfg.steps)) {
          AskKeepsOnce(cfg, HandleEdit(s, j), x);
        }
      case Confirm =>
        if ViewOf(cfg, s) == Reviewing {
          OtherAppendKeepsCount(s.conversation, Bot(ThanksMessage), x);
        }
    }
  }

  lemma {:induction false} RunPromptsOnce(cfg: Config, s: Session, es: seq<Event>)
    requires PromptsOnce(cfg, s)
    ensures PromptsOnce(cfg, Run(cfg, s, es))
    decreases |es|
  {
    if |es| > 0 {
      StepPromptsOnce(cfg, s, es[0]);
      RunPromptsOnce(cfg, Step(cfg, s, es[0]), es[1..]);
    }
  }

  /** In every reachable session each question's prompt has been shown at most once, however often
      its step was revisited through edits (question texts equal to a greeting, review or thank-you
      text excepted). */
  lemma PromptsNeverRepeat(cfg: Config, es: seq<Event>)
    ensures PromptsOnce(cfg, Reachable(cfg, es))
  {
    StartPromptsOnce(cfg);
    RunPromptsOnce(cfg, Start(cfg), es);
  }

  /** Three questions, the first two sharing the id "x". */
  const DupConfig := Config("", "", [
    Question("x", "A", Text, [], false, NoValidation),
    Question("x", "B", Text, [], false, NoValidation),
    Question("y", "C", Text, [], false, NoValidation)])

  lemma RunThree(cfg: Config, s: Session, a: Event, b: Event, c: Event)
    ensures Run(cfg, s, [a, b, c]) == Step(cfg, Step(cfg, Step(cfg, s, a), b), c)
  {
    assert [a, b, c][1..] == [b, c] && [b, c][1..] == [c] && [c][1..] == [];
    var s1 := Step(cfg, s, a);
    var s2 := Step(cfg, s1, b);
    assert Run(cfg, s2, [c]) == Run(cfg, Step(cfg, s2, c), []);
    assert Run(cfg, s1, [b, c]) == Run(cfg, s2, [c]);
  }

  lemma DupFirst()
    ensures var s := Step(DupConfig, Start(DupConfig), Answer(Str("a")));
      s.step == 1 && s.answers == [("x", Str("a"))] && !s.showSummary && !s.completed
  {
    assert Put([], "x", Str("a")) == [("x", Str("a"))];
  }

  lemma DupSecond(s: Session)
    requires s.step == 1 && s.answers == [("x", Str("a"))] && !s.showSummary && !s.completed
    ensures var t := Step(DupConfig, s, Answer(Str("b")));
      t.step == 2 && t.answers == [("x", Str("b"))] && !t.showSummary && !t.completed
  {
    assert Put(s.answers, "x", Str("b")) == [("x", Str("b"))];
  }

  lemma DupThird(s: Session)
    requires s.step == 2 && s.answers == [("x", Str("b"))] && !s.showSummary && !s.completed
    ensures Step(DupConfig, s, Answer(Str("c"))).answers == [("x", Str("b")), ("y", Str("c"))]
  {
    PutOrder(s.answers, "y", Str("c"));
    assert Put(s.answers, "y", Str("c")) == [("x", Str("b")), ("y", Str("c"))];
  }

  lemma DupRows()
    ensures Row("y", 2, "C", Str("c"), 1) in Rows([("x", Str("b")), ("y", Str("c"))], DupConfig.steps)
  {
    var answers: Dict<Value> := [("x", Str("b")), ("y", Str("c"))];
    assert FindQuestion(DupConfig.steps, "x") == Some(0);
    assert FindQuestion(DupConfig.steps, "y") == Some(2);
    var rows1 := RowsUpTo(answers, DupConfig.steps, 1);
    assert Rows(answers, DupConfig.steps) == rows1 + [Row("y", 2, "C", Str("c"), 1)];
  }

  /** With a repeated id the review panel's Edit button misses: questions "x", "x", "y" answered in
      turn leave two answer keys, and the row showing the third question passes index 1, which
      names the second question. */
  lemma DuplicateIdsMisdirectEdit()
    ensures
      var s := Reachable(DupConfig, AnswerAll([Str("a"), Str("b"), Str("c")]));
      exists r | r in Rows(s.answers, DupConfig.steps) :: r.question == 2 && r.editIndex == 1
  {
    var es := AnswerAll([Str("a"), Str("b"), Str("c")]);
    assert es == [Answer(Str("a")), Answer(Str("b")), Answer(Str("c"))];
    var s0 := Start(DupConfig);
    RunThree(DupConfig, s0, es[0], es[1], es[2]);
    var s1 := Step(DupConfig, s0, es[0]);
    DupFirst();
    var s2 := Step(DupConfig, s1, es[1]);
    DupSecond(s1);
    DupThird(s2);
    DupRows();
  }
}

=== FILE: export_data.dfy ===
/**
 The pure parts of the two exporters: the CSV header and data rows and the
 CSV text built from them, and the question-text-to-answer mapping that the
 JSON export serialises. The download itself (Blob, object URL, anchor click)
 and JSON.stringify's layout are not modelled; the JSON output is its ordered
 list of key/value pairs.
 */
module ExportData {
  import opened Values
  import opened Dicts
  import opened Strings
  import opened Forms

  /** A header field: the question text with every comma replaced by a space. */
  function HeaderField(q: Question): (r: string)
    ensures |r| == |q.text| && ',' !in r
    ensures forall i | 0 <= i < |r| :: r[i] == if q.text[i] == ',' then ' ' else q.text[i]
  {
    ReplaceAllRemoves(q.text, ',', ' ');
    ReplaceAll(q.text, ',', ' ')
  }

  /** A data field: the file's name for an answered file question (commas kept), the empty string
      for a missing or falsy answer, otherwise the answer's text with every comma replaced by a space.
      A string held by a file question has no `name`, and `join` renders the undefined as ""; a File
      held by any other question renders as "[object File]". */
  function DataField(answers: Dict<Value>, q: Question): (r: string)
    ensures var a := Lookup(answers, q.id);
      && (q.kind == File && a.FileRef? ==> r == a.name)
      && (q.kind == File && a.Str? ==> r == "")
      && (q.kind != File && a.FileRef? ==> r == "[object File]")
      && (!Truthy(a) ==> r == "")
      && (q.kind != File ==> ',' !in r)
      && (q.kind != File && a.Str? ==>
            |r| == |a.s| && forall i | 0 <= i < |r| :: r[i] == if a.s[i] == ',' then ' ' else a.s[i])
  {
    var a := Lookup(answers, q.id);
    if q.kind == File && Truthy(a) then JoinText(NameOf(a))
    else if Truthy(a) then
      ReplaceAllRemoves(ToText(a), ',', ' ');
      ReplaceAll(ToText(a), ',', ' ')
    else ""
  }

  /** `questions.map(...)` for the header row. */
  function CsvHeaders(qs: seq<Question>): (r: seq<string>)
    ensures |r| == |qs|
    ensures forall i | 0 <= i < |qs| :: r[i] == HeaderField(qs[i])
  {
    seq(|qs|, i requires 0 <= i < |qs| => HeaderField(qs[i]))
  }

  /** `questions.map(...)` for the data row. */
  function CsvData(answers: Dict<Value>, qs: seq<Question>): (r: seq<string>)
    ensures |r| == |qs|
    ensures forall i | 0 <= i < |qs| :: r[i] == DataField(answers, qs[i])
  {
    seq(|qs|, i requires 0 <= i < |qs| => DataField(answers, qs[i]))
  }

  /** The CSV text: the header row and the data row, fields joined by commas, rows by a newline.
      When no field contains a newline it reads back as exactly those two lines. */
  function CsvText(answers: Dict<Value>, qs: seq<Question>): (r: string)
    ensures (forall i | 0 <= i < |qs| :: '\n' !in qs[i].text && '\n' !in DataField(answers, qs[i])) ==>
      Split(r, '\n') == [Join(CsvHeaders(qs), ','), Join(CsvData(answers, qs), ',')]
  {
    var h, d := CsvHeaders(qs), CsvData(answers, qs);
    if forall i | 0 <= i < |qs| :: '\n' !in qs[i].text && '\n' !in DataField(answers, qs[i]) then
      assert forall i | 0 <= i < |h| :: '\n' !in h[i];
      TwoLines(h, d);
      Join(h, ',') + "\n" + Join(d, ',')
    else
      Join(h, ',') + "\n" + Join(d, ',')
  }

  /** The header row always splits back into exactly one field per question, in question order;
      so does the data row when no question is a file question. */
  lemma CsvRowsSplitBack(answers: Dict<Value>, qs: seq<Question>)
    requires |qs| > 0
    ensures Split(Join(CsvHeaders(qs), ','), ',') == CsvHeaders(qs)
    ensures (forall i | 0 <= i < |qs| :: qs[i].kind != File) ==>
      Split(Join(CsvData(answers, qs), ','), ',') == CsvData(answers, qs)
  {
    SplitJoin(CsvHeaders(qs), ',');
    if forall i | 0 <= i < |qs| :: qs[i].kind != File {
      SplitJoin(CsvData(answers, qs), ',');
    }
  }

  /** Two comma-joined rows without newlines, joined by a newline, split back into the two rows. */
  lemma TwoLines(h: seq<string>, d: seq<string>)
    requires forall i | 0 <= i < |h| :: '\n' !in h[i]
    requires forall i | 0 <= i < |d| :: '\n' !in d[i]
    ensures Split(Join(h, ',') + "\n" + Join(d, ','), '\n') == [Join(h, ','), Join(d, ',')]
  {
    JoinAvoids(h, ',', '\n');
    JoinAvoids(d, ',', '\n');
    SplitAtSeparator(Join(h, ','), Join(d, ','), '\n');
    SplitPlain(Join(d, ','), '\n');
  }

  /** The value the JSON export records for a question: the file's name for an answered file
      question (undefined when a file question holds a string), otherwise `answer || ''`. */
  function JsonValue(answers: Dict<Value>, q: Question): (r: Value)
    ensures var a := Lookup(answers, q.id);
      && (q.kind == File && a.FileRef? ==> r == Str(a.name))
      && (q.kind == File && a.Str? && Truthy(a) ==> r == Undefined)
      && (!Truthy(a) ==> r == Str(""))
      && (q.kind != File && Truthy(a) ==> r == a)
  {
    var a := Lookup(answers, q.id);
    if q.kind == File && Truthy(a) then NameOf(a) else Or(a, "")
  }

  /** The (text, value) assignment the JSON export makes for each question, in question order. */
  function JsonPairs(answers: Dict<Value>, qs: seq<Question>): (ps: seq<(string, Value)>)
    ensures |ps| == |qs|
    ensures forall i | 0 <= i < |qs| :: ps[i] == (qs[i].text, JsonValue(answers, qs[i]))
  {
    seq(|qs|, i requires 0 <= i < |qs| => (qs[i].text, JsonValue(answers, qs[i])))
  }

  /** `questions.reduce((acc, question) => { acc[question.text] = value; return acc; }, {})`: the
      object the JSON export serialises. Its keys are exactly the question texts, and a text that no
      later question reuses maps to its question's exported answer. */
  function JsonMapping(answers: Dict<Value>, qs: seq<Question>): (r: Dict<Value>)
    ensures forall i | 0 <= i < |qs| :: qs[i].text in Keys(r)
    ensures forall t | t in Keys(r) :: exists i | 0 <= i < |qs| :: qs[i].text == t
    ensures forall i | 0 <= i < |qs| && LastWithText(qs, i) :: Get(r, qs[i].text) == Some(JsonValue(answers, qs[i]))
  {
    JsonFacts(answers, qs);
    Assign([], JsonPairs(answers, qs))
  }

  /** The facts `JsonMapping` promises, for every text and every question at once. */
  lemma JsonFacts(answers: Dict<Value>, qs: seq<Question>)
    ensures forall i | 0 <= i < |qs| :: qs[i].text in Keys(Assign([], JsonPairs(answers, qs)))
    ensures forall t | t in Keys(Assign([], JsonPairs(answers, qs))) :: exists i | 0 <= i < |qs| :: qs[i].text == t
    ensures forall i | 0 <= i < |qs| && LastWithText(qs, i) ::
      Get(Assign([], JsonPairs(answers, qs)), qs[i].text) == Some(JsonValue(answers, qs[i]))
  {
    var r := Assign([], JsonPairs(answers, qs));
    forall t | t in Keys(r)
      ensures exists i | 0 <= i < |qs| :: qs[i].text == t
    {
      JsonTextKeys(answers, qs, t);
    }
    forall i | 0 <= i < |qs|
      ensures qs[i].text in Keys(r)
    {
      JsonTextKeys(answers, qs, qs[i].text);
    }
    forall i | 0 <= i < |qs| && LastWithText(qs, i)
      ensures Get(r, qs[i].text) == Some(JsonValue(answers, qs[i]))
    {
      JsonLaterWins(answers, qs, i);
    }
  }

  /** The keys of the folded object are exactly the question texts. */
  lemma JsonTextKeys(answers: Dict<Value>, qs: seq<Question>, t: string)
    ensures t in Keys(Assign([], JsonPairs(answers, qs))) <==> exists i | 0 <= i < |qs| :: qs[i].text == t
  {
    var ps := JsonPairs(answers, qs);
    AssignKeys([], ps, t);
    if t in Keys(ps) {
      var i :| 0 <= i < |ps| && Keys(ps)[i] == t;
      assert qs[i].text == t;
    }
    if exists i | 0 <= i < |qs| :: qs[i].text == t {
      var i :| 0 <= i < |qs| && qs[i].text == t;
      assert Keys(ps)[i] == t;
    }
  }

  /** Question i's text is not reused by a later question. */
  predicate LastWithText(qs: seq<Question>, i: nat)
    requires i < |qs|
  {
    forall j | i < j < |qs| :: qs[j].text != qs[i].text
  }

  /** A question's entry holds its exported answer unless a later question has the same text;
      the later question's entry then wins. */
  lemma JsonLaterWins(answers: Dict<Value>, qs: seq<Question>, i: nat)
    requires i < |qs| && LastWithText(qs, i)
    ensures Get(Assign([], JsonPairs(answers, qs)), qs[i].text) == Some(JsonValue(answers, qs[i]))
  {
    var ps := JsonPairs(answers, qs);
    assert LastAssigned(ps, i);
    AssignLastWins([], ps, i);
  }

  /** With distinct question texts the JSON object lists every question's text, in question
      order, each with that question's exported answer. */
  lemma JsonKeysInQuestionOrder(answers: Dict<Value>, qs: seq<Question>)
    requires forall i, j | 0 <= i < j < |qs| :: qs[i].text != qs[j].text
    ensures |JsonMapping(answers, qs)| == |qs|
    ensures forall i | 0 <= i < |qs| :: JsonMapping(answers, qs)[i] == (qs[i].text, JsonValue(answers, qs[i]))
  {
    var ps := JsonPairs(answers, qs);
    var r := JsonMapping(answers, qs);
    AssignKeyOrder([], ps);
    assert Keys(r) == Keys(ps);
    forall i | 0 <= i < |qs|
      ensures r[i] == (qs[i].text, JsonValue(answers, qs[i]))
    {
      assert r[i].0 == Keys(ps)[i] == qs[i].text;
      GetAt(r, i);
      assert LastWithText(qs, i);
    }
  }

  /** The properties `JSON.stringify` writes out: it skips a property whose value is undefined
      (a file question answered with text, whose `.name` is undefined) and keeps the rest in order. */
  function Serialized(m: seq<(string, Value)>): (r: seq<(string, Value)>)
    ensures forall p | p in r :: p in m && !p.1.Undefined?
    ensures forall p | p in m && !p.1.Undefined? :: p in r
    ensures |r| <= |m|
    ensures (forall p | p in m :: !p.1.Undefined?) ==> r == m
  {
    if |m| == 0 then []
    else if m[0].1.Undefined? then Serialized(m[1..])
    else [m[0]] + Serialized(m[1..])
  }

  /** Serialisation keeps order: the properties kept from a + b are those kept from a, followed by
      those kept from b. */
  lemma {:induction false} SerializedAppend(a: seq<(string, Value)>, b: seq<(string, Value)>)
    ensures Serialized(a + b) == Serialized(a) + Serialized(b)
    decreases |a|
  {
    if |a| > 0 {
      assert (a + b)[0] == a[0];
      assert (a + b)[1..] == a[1..] + b;
      SerializedAppend(a[1..], b);
      if !a[0].1.Undefined? {
        AppendAssoc([a[0]], Serialized(a[1..]), Serialized(b));
      }
    } else {
      assert a + b == b;
    }
  }

  /** With distinct question texts the serialised JSON lists the exported answers in question
      order, skipping only undefined values; when no file question holds a text answer, nothing is
      skipped. */
  lemma JsonTextInQuestionOrder(answers: Dict<Value>, qs: seq<Question>)
    requires forall i, j | 0 <= i < j < |qs| :: qs[i].text != qs[j].text
    ensures Serialized(JsonMapping(answers, qs)) == Serialized(JsonPairs(answers, qs))
    ensures (forall i | 0 <= i < |qs| :: qs[i].kind == File ==> !Lookup(answers, qs[i].id).Str?) ==>
      Serialized(JsonMapping(answers, qs)) == JsonPairs(answers, qs)
  {
    JsonKeysInQuestionOrder(answers, qs);
    assert JsonMapping(answers, qs) == JsonPairs(answers, qs);
  }

  /** An answered, non-file question always appears in the serialised JSON with its answer. */
  lemma AnsweredTextQuestionSerialized(answers: Dict<Value>, qs: seq<Question>, i: nat)
    requires i < |qs| && LastWithText(qs, i) && qs[i].kind != File
    ensures (qs[i].text, Or(Lookup(answers, qs[i].id), "")) in Serialized(JsonMapping(answers, qs))
  {
    var m := JsonMapping(answers, qs);
    var k :| 0 <= k < |m| && m[k] == (qs[i].text, JsonValue(answers, qs[i]));
    assert m[k] in m;
  }
}

=== FILE: form_engine.dfy ===
/**
 The form session: the current step, the insertion-ordered answers, the
 append-only transcript, and the two phase flags (summary shown, completed).
 Each handler of the engine component is a pure transition; the effect that
 asks the current question runs after every transition that changes the step
 or the summary flag. The half-second delay before advancing is taken as
 immediate.
 */
module FormEngine {
  import opened Values
  import opened Dicts
  import opened Forms
  import Summary

  const DefaultTitle := "Welcome to our conversational form!"
  const DefaultDescription := "Please answer the following questions."
  const ReviewMessage := "Thank you for your responses. Please review your answers before submitting."
  const ThanksMessage := "Thank you for submitting your responses!"

  /** What a user message shows: a value, or, for a select option object without a label,
      the option object itself. */
  datatype Shown = Said(v: Value) | OptionObject(choice: Choice)

  /** A transcript entry. Bot messages are always strings; avatars are presentation only. */
  datatype Message = Bot(text: string) | User(shown: Shown)

  datatype Session = Session(
    step: nat,
    answers: Dict<Value>,
    conversation: seq<Message>,
    showSummary: bool,
    completed: bool)

  /** What `renderCurrentInput` shows under the transcript. */
  datatype View = Finished | Reviewing | Asking(index: nat) | Nothing

  /** An action the user can take: submit an accepted field value, press a row's Edit button
      (which passes its index), or press the summary's Submit button. */
  datatype Event = Answer(value: Value) | Edit(index: nat) | Confirm

  function TitleText(cfg: Config): string {
    if cfg.title != "" then cfg.title else DefaultTitle
  }

  function DescriptionText(cfg: Config): string {
    if cfg.description != "" then cfg.description else DefaultDescription
  }

  /** The two greeting messages, sent only when the form has questions. */
  function Greeting(cfg: Config): seq<Message> {
    if |cfg.steps| > 0 then [Bot(TitleText(cfg)), Bot(DescriptionText(cfg))] else []
  }

  /** The effect that asks the current question, run with the transcript `seen` its closure
      captured: the prompt is appended when the summary is hidden, the step names a question and no
      bot message in `seen` already has the prompt's text. Nothing else changes. */
  function AskCurrent(cfg: Config, s: Session, seen: seq<Message>): (r: Session)
    ensures r.step == s.step && r.answers == s.answers
    ensures r.showSummary == s.showSummary && r.completed == s.completed
    ensures s.step < |cfg.steps| && !s.showSummary && Bot(cfg.steps[s.step].text) !in seen
      ==> r.conversation == s.conversation + [Bot(cfg.steps[s.step].text)]
    ensures !(s.step < |cfg.steps| && !s.showSummary && Bot(cfg.steps[s.step].text) !in seen)
      ==> r.conversation == s.conversation
  {
    if |cfg.steps| > 0 && s.step < |cfg.steps| && !s.showSummary then
      var prompt := Bot(cfg.steps[s.step].text);
      if prompt in seen then s
      else s.(conversation := s.conversation + [prompt])
    else s
  }

  /** The session right after mounting: the greeting, then the first prompt. On the first render
      the question effect still sees the empty transcript, so the prompt is not compared with the
      greeting. */
  function Start(cfg: Config): (r: Session)
    ensures r.step == 0 && r.answers == [] && !r.showSummary && !r.completed
    ensures |cfg.steps| == 0 ==> r.conversation == []
    ensures |cfg.steps| > 0 ==> r.conversation == Greeting(cfg) + [Bot(cfg.steps[0].text)]
    ensures |cfg.steps| > 0 ==> r.conversation[0] == Bot(if cfg.title == "" then DefaultTitle else cfg.title)
    ensures |cfg.steps| > 0 ==> r.conversation[1] == Bot(if cfg.description == "" then DefaultDescription else cfg.description)
  {
    AskCurrent(cfg, Session(0, [], Greeting(cfg), false, false), [])
  }

  /** `(opt.value || opt) === value`: a bare string option matches by itself, an option object by
      its non-empty `value`; an object without one never equals an answer. */
  predicate OptionMatches(o: Choice, v: Value) {
    match o
    case Plain(t) => v == Str(t)
    case Labeled(value, _) => value != "" && v == Str(value)
  }

  /** `options.find(...)`: the first option matching the answer. */
  function FindOption(opts: seq<Choice>, v: Value): (r: Option<Choice>)
    ensures r.Some? ==> exists i | 0 <= i < |opts| ::
      && opts[i] == r.value && OptionMatches(opts[i], v)
      && forall j | 0 <= j < i :: !OptionMatches(opts[j], v)
    ensures r.None? ==> forall i | 0 <= i < |opts| :: !OptionMatches(opts[i], v)
  {
    if |opts| == 0 then None
    else if OptionMatches(opts[0], v) then Some(opts[0])
    else
      var r := FindOption(opts[1..], v);
      assert forall i | 0 <= i < |opts| - 1 :: opts[1..][i] == opts[i + 1];
      if r.Some? then
        var i :| 0 <= i < |opts| - 1 && opts[1..][i] == r.value && OptionMatches(opts[1..][i], v)
          && forall j | 0 <= j < i :: !OptionMatches(opts[1..][j], v);
        assert opts[i + 1] == r.value;
        r
      else r
  }

  /** `option.label || option`: a bare string option has no `label` and shows itself; an option
      object shows its label, and falls back to the object itself exactly when the label is empty. */
  function OptionLabel(o: Choice): (r: Shown)
    ensures o.Plain? ==> r == Said(Str(o.text))
    ensures o.Labeled? && o.caption != "" ==> r == Said(Str(o.caption))
    ensures r.OptionObject? <==> o.Labeled? && o.caption == ""
    ensures r.OptionObject? ==> r.choice == o
  {
    match o
    case Plain(t) => Said(Str(t))
    case Labeled(_, caption) => if caption != "" then Said(Str(caption)) else OptionObject(o)
  }

  /** The message shown for an answer: "File: " and the name for an answered file question, the
      first matching option's label for a select question, otherwise the value itself. */
  function DisplayValue(q: Question, v: Value): (r: Shown)
    ensures q.kind == File && v.FileRef? ==> r == Said(Str("File: " + v.name))
    ensures q.kind == File && v.Str? && Truthy(v) ==> r == Said(Str("File: undefined"))
    ensures q.kind == File && !Truthy(v) ==> r == Said(v)
    ensures q.kind != File && q.kind != Select ==> r == Said(v)
    ensures q.kind == Select && (forall i | 0 <= i < |q.options| :: !OptionMatches(q.options[i], v)) ==> r == Said(v)
    ensures q.kind == Select ==> forall i | 0 <= i < |q.options| ::
      OptionMatches(q.options[i], v) && (forall j | 0 <= j < i :: !OptionMatches(q.options[j], v))
      ==> r == OptionLabel(q.options[i])
  {
    assert "File: " + ToText(Undefined) == "File: undefined";
    if q.kind == File && Truthy(v) then Said(Str("File: " + ToText(NameOf(v))))
    else if q.kind == Select then
      match FindOption(q.options, v)
      case Some(o) => OptionLabel(o)
      case None => Said(v)
    else Said(v)
  }

  /** `handleInputSubmit`: store the raw value under the current question's id, append the
      displayed answer, then advance to the next question or, after the last one, show the summary
      and append the review message. */
  function HandleInputSubmit(cfg: Config, s: Session, v: Value): (r: Session)
    requires s.step < |cfg.steps|
    ensures Get(r.answers, cfg.steps[s.step].id) == Some(v)
    ensures forall k | k != cfg.steps[s.step].id :: Get(r.answers, k) == Get(s.answers, k)
    ensures s.step + 1 < |cfg.steps| ==>
      && r.step == s.step + 1 && r.showSummary == s.showSummary
      && r.conversation == s.conversation + [User(DisplayValue(cfg.steps[s.step], v))]
    ensures s.step + 1 == |cfg.steps| ==>
      && r.step == s.step && r.showSummary
      && r.conversation == s.conversation + [User(DisplayValue(cfg.steps[s.step], v)), Bot(ReviewMessage)]
    ensures r.completed == s.completed
  {
    var q := cfg.steps[s.step];
    var answered := s.(answers := Put(s.answers, q.id, v),
                       conversation := s.conversation + [User(DisplayValue(q, v))]);
    if s.step < |cfg.steps| - 1 then answered.(step := s.step + 1)
    else answered.(showSummary := true, conversation := answered.conversation + [Bot(ReviewMessage)])
  }

  /** `handleEdit`: jump to the given step and hide the summary; answers and transcript stay. */
  function HandleEdit(s: Session, k: nat): (r: Session)
    ensures r.step == k && !r.showSummary
    ensures r.answers == s.answers && r.conversation == s.conversation && r.completed == s.completed
  {
    s.(step := k, showSummary := false)
  }

  /** `handleSubmit`: mark the session completed, append one thank-you message, and hand the
      current answers, unchanged, to `onComplete`. */
  function HandleSubmit(s: Session): (r: (Session, Dict<Value>))
    ensures r.0.completed
    ensures r.0.conversation == s.conversation + [Bot(ThanksMessage)]
    ensures r.0.answers == s.answers && r.1 == s.answers
    ensures r.0.step == s.step && r.0.showSummary == s.showSummary
  {
    (s.(completed := true, conversation := s.conversation + [Bot(ThanksMessage)]), s.answers)
  }

  /** `renderCurrentInput`: nothing once completed, the summary while it is shown, otherwise the
      input for the current question if there is one. */
  function ViewOf(cfg: Config, s: Session): (r: View)
    ensures s.completed <==> r == Finished
    ensures r == Reviewing <==> !s.completed && s.showSummary
    ensures r.Asking? <==> !s.completed && !s.showSummary && s.step < |cfg.steps|
    ensures r.Asking? ==> r.index == s.step
  {
    if s.completed then Finished
    else if s.showSummary then Reviewing
    else if s.step < |cfg.steps| then Asking(s.step)
    else Nothing
  }

  /** The step number the progress bar shows: the current question's number while asking, the
      number of questions in the summary. */
  function ProgressStep(cfg: Config, s: Session): (r: nat)
    ensures !s.showSummary ==> r == s.step + 1
    ensures s.showSummary ==> r == |cfg.steps|
    ensures s.step < |cfg.steps| ==> 1 <= r <= |cfg.steps|
    ensures r == |cfg.steps| <==> s.showSummary || s.step + 1 == |cfg.steps|
  {
    if s.showSummary then |cfg.steps| else s.step + 1
  }

  /** Whether the control for an action is on screen: the input for an answer, a row's Edit button
      for an edit, the summary's Submit button for a confirmation. */
  predicate Offered(cfg: Config, s: Session, e: Event) {
    match e
    case Answer(_) => ViewOf(cfg, s).Asking?
    case Edit(k) => ViewOf(cfg, s) == Reviewing && k in Summary.EditIndices(Summary.Rows(s.answers, cfg.steps))
    case Confirm => ViewOf(cfg, s) == Reviewing
  }

  /** The prompt the question effect adds on arriving at step k with transcript `conv`: the
      question's text, unless the step names no question or a bot message already has that text. */
  function NewPrompt(cfg: Config, conv: seq<Message>, k: nat): seq<Message> {
    if k < |cfg.steps| && Bot(cfg.steps[k].text) !in conv then [Bot(cfg.steps[k].text)] else []
  }

  /** Submitting a value, offered only while an input is shown. */
  function AnswerStep(cfg: Config, s: Session, v: Value): (r: Session)
    ensures s.conversation <= r.conversation
    ensures !ViewOf(cfg, s).Asking? ==> r == s
    ensures ViewOf(cfg, s).Asking? ==>
      && Get(r.answers, cfg.steps[s.step].id) == Some(v)
      && (forall k | k != cfg.steps[s.step].id :: Get(r.answers, k) == Get(s.answers, k))
      && r.completed == s.completed
    ensures ViewOf(cfg, s).Asking? && s.step + 1 < |cfg.steps| ==>
      && r.step == s.step + 1 && !r.showSummary
      && r.conversation == s.conversation + [User(DisplayValue(cfg.steps[s.step], v))]
                           + NewPrompt(cfg, s.conversation, s.step + 1)
    ensures ViewOf(cfg, s).Asking? && s.step + 1 == |cfg.steps| ==>
      && r.step == s.step && r.showSummary
      && r.conversation == s.conversation + [User(DisplayValue(cfg.steps[s.step], v)), Bot(ReviewMessage)]
  {
    if ViewOf(cfg, s).Asking? then
      var t := HandleInputSubmit(cfg, s, v);
      AskCurrent(cfg, t, t.conversation)
    else s
  }

  /** Pressing a row's Edit button, offered only while the summary shows that row. */
  function EditStep(cfg: Config, s: Session, k: nat): (r: Session)
    ensures s.conversation <= r.conversation
    ensures r.answers == s.answers && r.completed == s.completed
    ensures !Offered(cfg, s, Edit(k)) ==> r == s
    ensures Offered(cfg, s, Edit(k)) ==>
      && r.step == k && !r.showSummary
      && r.conversation == s.conversation + NewPrompt(cfg, s.conversation, k)
  {
    if ViewOf(cfg, s) == Reviewing && k in Summary.EditIndices(Summary.Rows(s.answers, cfg.steps)) then
      var t := HandleEdit(s, k);
      AskCurrent(cfg, t, t.conversation)
    else s
  }

  /** Pressing the summary's Submit button, offered only while the summary is shown. */
  function ConfirmStep(cfg: Config, s: Session): (r: Session)
    ensures s.conversation <= r.conversation
    ensures r.answers == s.answers
    ensures ViewOf(cfg, s) != Reviewing ==> r == s
    ensures ViewOf(cfg, s) == Reviewing ==> r.completed && r.conversation == s.conversation + [Bot(ThanksMessage)]
    ensures ViewOf(cfg, s) == Reviewing ==> r.step == s.step && r.showSummary == s.showSummary
  {
    if ViewOf(cfg, s) == Reviewing then HandleSubmit(s).0 else s
  }

  /** One user action and the effect run after it. An action whose control is not on screen
      (no input, no summary, no such Edit button) cannot happen and leaves the session as it is. */
  function Step(cfg: Config, s: Session, e: Event): (r: Session)
    ensures s.conversation <= r.conversation
    ensures !e.Answer? ==> r.answers == s.answers
    ensures !e.Confirm? ==> r.completed == s.completed
    ensures s.completed ==> r == s
    ensures !Offered(cfg, s, e) ==> r == s
    ensures e.Answer? && Offered(cfg, s, e) ==>
      && Get(r.answers, cfg.steps[s.step].id) == Some(e.value)
      && forall k | k != cfg.steps[s.step].id :: Get(r.answers, k) == Get(s.answers, k)
    ensures e.Answer? && Offered(cfg, s, e) && s.step + 1 < |cfg.steps| ==>
      && r.step == s.step + 1 && !r.showSummary
      && r.conversation == s.conversation + [User(DisplayValue(cfg.steps[s.step], e.value))]
                           + NewPrompt(cfg, s.conversation, s.step + 1)
    ensures e.Answer? && Offered(cfg, s, e) && s.step + 1 == |cfg.steps| ==>
      && r.step == s.step && r.showSummary
      && r.conversation == s.conversation + [User(DisplayValue(cfg.steps[s.step], e.value)), Bot(ReviewMessage)]
    ensures e.Edit? && Offered(cfg, s, e) ==>
      && r.step == e.index && !r.showSummary
      && r.conversation == s.conversation + NewPrompt(cfg, s.conversation, e.index)
    ensures e.Confirm? && Offered(cfg, s, e) ==>
      && r.completed && r.conversation == s.conversation + [Bot(ThanksMessage)]
      && r.step == s.step && r.showSummary == s.showSummary
  {
    match e
    case Answer(v) => AnswerStep(cfg, s, v)
    case Edit(k) => EditStep(cfg, s, k)
    case Confirm => ConfirmStep(cfg, s)
  }

  /** The session after a sequence of user actions. */
  function Run(cfg: Config, s: Session, es: seq<Event>): (r: Session)
    ensures s.conversation <= r.conversation
    ensures s.completed ==> r == s
    decreases |es|
  {
    if |es| == 0 then s else Run(cfg, Step(cfg, s, es[0]), es[1..])
  }
}

=== FILE: forms.dfy ===
/**
 The form configuration: the title and description of the greeting and the
 ordered question list (`config.steps`). Loaded once and never changed.
 */
module Forms {
  import opened Values

  /** A question's `type`. A missing type behaves as `Text`; an unknown one as `Other`
      (a plain input of that HTML type with no type-specific checks). */
  datatype Kind = Text | Textarea | Select | Date | File | Number | Email | Other

  /** An entry of a select question's `options`: either a bare string, or an object whose
      `value` and `label` (here `caption`) may be missing; the empty string stands for a
      missing or falsy one. */
  datatype Choice = Plain(text: string) | Labeled(value: string, caption: string)

  /** A question's `validation` setting: absent, a truthy non-function value (which switches on
      the built-in email and number checks), or a function returning an error message, the empty
      string meaning "no error". */
  datatype Validation = NoValidation | Flag | Custom(check: string -> string)

  datatype Question = Question(
    id: string,
    text: string,
    kind: Kind,
    options: seq<Choice>,
    required: bool,
    validation: Validation)

  /** `title` and `description` are the empty string when missing. */
  datatype Config = Config(title: string, description: string, steps: seq<Question>)

  function Ids(qs: seq<Question>): (r: seq<string>)
    ensures |r| == |qs|
    ensures forall i | 0 <= i < |qs| :: r[i] == qs[i].id
  {
    seq(|qs|, i requires 0 <= i < |qs| => qs[i].id)
  }

  predicate UniqueIds(qs: seq<Question>) {
    forall i, j | 0 <= i < j < |qs| :: qs[i].id != qs[j].id
  }

  /** `qs.find(q => q.id === id)`, as the position of the question found. */
  function FindQuestion(qs: seq<Question>, id: string): (r: Option<nat>)
    ensures r.Some? ==> r.value < |qs| && qs[r.value].id == id
    ensures r.Some? ==> forall j | 0 <= j < r.value :: qs[j].id != id
    ensures r.None? ==> forall j | 0 <= j < |qs| :: qs[j].id != id
  {
    if |qs| == 0 then None
    else if qs[0].id == id then Some(0)
    else match FindQuestion(qs[1..], id)
      case Some(j) => Some(j + 1)
      case None => None
  }
}

=== FILE: input_field.dfy ===
/**
 The input field shown for the current question: its local state (text value,
 chosen file, error message), the change handler, the acceptance decision
 `validateInput` and the submit handler that hands the accepted payload to the
 engine. `Number(value)` is left abstract: callers pass `isNaNNumber`, which
 says whether `isNaN(Number(value))` holds.
 */
module InputField {
  import opened Values
  import opened Strings
  import opened Forms

  /** The field's local state: text value, chosen file (null until one is picked) and error message. */
  datatype FieldState = FieldState(value: string, file: Value, error: string)

  /** A freshly mounted field. */
  const Fresh := FieldState("", Null, "")

  /** What a change event carries: `e.target.value`, and `e.target.files[0]` (undefined when
      the pick was cancelled) for a file input. */
  datatype Target = Target(value: string, firstFile: Value)

  const RequiredMessage := "This field is required"
  const FileMessage := "Please select a file"
  const EmailMessage := "Please enter a valid email address"
  const NumberMessage := "Please enter a valid number"

  datatype Verdict = Accept | Reject(message: string)

  /** `handleChange`: a file input records the picked file, any other input its text; the error is cleared. */
  function HandleChange(kind: Kind, st: FieldState, t: Target): (r: FieldState)
    ensures r.error == ""
    ensures kind == File ==> r.file == t.firstFile && r.value == st.value
    ensures kind != File ==> r.value == t.value && r.file == st.file
  {
    if kind == File then FieldState(st.value, t.firstFile, "")
    else FieldState(t.value, st.file, "")
  }

  /** What `\S+` matches: one or more non-whitespace characters. */
  ghost predicate NonBlank(t: string) {
    |t| > 0 && forall k | 0 <= k < |t| :: !IsSpace(t[k])
  }

  /** The substring s[i..e] reads x@y.z, with the '@' at p and the '.' at q. */
  ghost predicate EmailAt(s: string, i: int, p: int, q: int, e: int) {
    && 0 <= i < p && p + 1 < q && q + 1 < e <= |s|
    && s[p] == '@' && s[q] == '.'
    && NonBlank(s[i..p]) && NonBlank(s[p + 1..q]) && NonBlank(s[q + 1..e])
  }

  /** `/\S+@\S+\.\S+/.test(s)`: the pattern is not anchored, so it holds when some substring
      reads x@y.z with x, y and z non-empty runs of non-whitespace. */
  ghost predicate MatchesEmailPattern(s: string) {
    exists i, p, q, e :: EmailAt(s, i, p, q, e)
  }

  /** An '@' at p preceded by a non-whitespace character, a '.' at q at least two places later
      and followed by a non-whitespace character, and no whitespace in between. */
  predicate EmailCore(s: string, p: int, q: int) {
    && 1 <= p && p + 1 < q && q + 1 < |s|
    && s[p] == '@' && s[q] == '.'
    && !IsSpace(s[p - 1]) && !IsSpace(s[q + 1])
    && forall k | p < k < q :: !IsSpace(s[k])
  }

  /** The email check as the field computes it, scanning for a shortest match. */
  predicate LooksLikeEmail(s: string) {
    exists p, q | 0 <= p < |s| && 0 <= q < |s| :: EmailCore(s, p, q)
  }

  /** The computed check agrees with the regular expression on every string. */
  lemma EmailCheckIsPattern(s: string)
    ensures LooksLikeEmail(s) <==> MatchesEmailPattern(s)
  {
    if LooksLikeEmail(s) {
      var p, q :| 0 <= p < |s| && 0 <= q < |s| && EmailCore(s, p, q);
      var y := s[p + 1..q];
      assert forall k | 0 <= k < |y| :: y[k] == s[p + 1 + k];
      assert NonBlank(y);
      assert NonBlank(s[p - 1..p]);
      assert NonBlank(s[q + 1..q + 2]);
      assert EmailAt(s, p - 1, p, q, q + 2);
    }
    if MatchesEmailPattern(s) {
      var i, p, q, e :| EmailAt(s, i, p, q, e);
      var x, y, z := s[i..p], s[p + 1..q], s[q + 1..e];
      assert x[p - 1 - i] == s[p - 1];
      assert z[0] == s[q + 1];
      assert forall k | 0 <= k < |y| :: y[k] == s[p + 1 + k];
      assert forall k | p < k < q :: s[k] == y[k - p - 1];
      assert EmailCore(s, p, q);
    }
  }

  /** One check of `validateInput`: whether it fails, and the message it then shows. */
  datatype Check = Check(failed: bool, message: string)

  /** The checks of `validateInput` in the order it applies them. The format and custom checks
      apply only when a validation setting is present and the value is non-empty. */
  ghost function Checks(q: Question, st: FieldState, isNaNNumber: string -> bool): seq<Check> {
    var active := !q.validation.NoValidation? && st.value != "";
    var customError := if q.validation.Custom? then q.validation.check(st.value) else "";
    [ Check(q.required && st.value == "" && q.kind != File, RequiredMessage),
      Check(q.required && q.kind == File && !Truthy(st.file), FileMessage),
      Check(active && q.kind == Email && !MatchesEmailPattern(st.value), EmailMessage),
      Check(active && q.kind == Number && isNaNNumber(st.value), NumberMessage),
      Check(active && customError != "", customError) ]
  }

  /** The verdict of a list of checks applied in order: the first failure's message wins. */
  function FirstFailure(cs: seq<Check>): Verdict {
    if |cs| == 0 then Accept
    else if cs[0].failed then Reject(cs[0].message)
    else FirstFailure(cs[1..])
  }

  /** The verdict accepts exactly when no check fails, and otherwise carries the message of the
      earliest failing check. */
  lemma {:induction false} FirstFailureIsEarliest(cs: seq<Check>)
    ensures FirstFailure(cs) == Accept <==> forall i | 0 <= i < |cs| :: !cs[i].failed
    ensures FirstFailure(cs).Reject? ==> exists i | 0 <= i < |cs| ::
      && cs[i].failed && FirstFailure(cs).message == cs[i].message
      && forall j | 0 <= j < i :: !cs[j].failed
  {
    if |cs| > 0 && !cs[0].failed {
      var tail := cs[1..];
      FirstFailureIsEarliest(tail);
      assert forall i | 0 <= i < |tail| :: tail[i] == cs[i + 1];
      if FirstFailure(tail).Reject? {
        var i :| 0 <= i < |tail| && tail[i].failed && FirstFailure(tail).message == tail[i].message
          && forall j | 0 <= j < i :: !tail[j].failed;
        assert forall j | 1 <= j < i + 1 :: cs[j] == tail[j - 1];
        assert cs[i + 1].failed;
      }
    }
  }

  /** FirstFailure of a five-element list, check by check. */
  lemma ChecksUnfold(cs: seq<Check>)
    requires |cs| == 5
    ensures FirstFailure(cs) ==
      if cs[0].failed then Reject(cs[0].message)
      else if cs[1].failed then Reject(cs[1].message)
      else if cs[2].failed then Reject(cs[2].message)
      else if cs[3].failed then Reject(cs[3].message)
      else if cs[4].failed then Reject(cs[4].message)
      else Accept
  {
    var c1 := cs[1..];
    var c2 := c1[1..];
    var c3 := c2[1..];
    var c4 := c3[1..];
    assert c1[0] == cs[1] && c2[0] == cs[2] && c3[0] == cs[3] && c4[0] == cs[4];
    assert FirstFailure(c4[1..]) == Accept;
    assert FirstFailure(c4) == if cs[4].failed then Reject(cs[4].message) else Accept;
    assert FirstFailure(c3) == if cs[3].failed then Reject(cs[3].message) else FirstFailure(c4);
    assert FirstFailure(c2) == if cs[2].failed then Reject(cs[2].message) else FirstFailure(c3);
    assert FirstFailure(c1) == if cs[1].failed then Reject(cs[1].message) else FirstFailure(c2);
  }

  /** `validateInput`: the required check, then (when a validation setting is present and the
      value non-empty) the email, number and custom checks, stopping at the first failure. */
  function ValidateInput(q: Question, st: FieldState, isNaNNumber: string -> bool): (r: Verdict)
    ensures r == FirstFailure(Checks(q, st, isNaNNumber))
    ensures !q.required && st.value == "" ==> r == Accept
    ensures r == Accept && q.required ==> (if q.kind == File then Truthy(st.file) else st.value != "")
  {
    EmailCheckIsPattern(st.value);
    ChecksUnfold(Checks(q, st, isNaNNumber));
    if q.required && st.value == "" && q.kind != File then Reject(RequiredMessage)
    else if q.required && q.kind == File && !Truthy(st.file) then Reject(FileMessage)
    else if !q.validation.NoValidation? && st.value != "" then
      if q.kind == Email && !LooksLikeEmail(st.value) then Reject(EmailMessage)
      else if q.kind == Number && isNaNNumber(st.value) then Reject(NumberMessage)
      else if q.validation.Custom? && q.validation.check(st.value) != "" then
        Reject(q.validation.check(st.value))
      else Accept
    else Accept
  }

  /** After a change, an accepted submission hands on exactly what the change recorded: the picked
      file for a file field, the typed text otherwise; and a required text field left empty by the
      change is rejected with the required message. */
  lemma ChangeThenSubmit(q: Question, st: FieldState, t: Target, isNaNNumber: string -> bool)
    ensures var r := HandleSubmit(q, HandleChange(q.kind, st, t), isNaNNumber);
      && (r.sent.Some? ==> r.sent.value == if q.kind == File then t.firstFile else Str(t.value))
      && (q.required && q.kind != File && t.value == "" ==> r.sent.None? && r.state.error == RequiredMessage)
      && (q.required && q.kind == File && !Truthy(t.firstFile) ==> r.sent.None? && r.state.error == FileMessage)
  {
  }

  /** The outcome of pressing Submit: the field's next state and what, if anything, was handed to `onSubmit`. */
  datatype Submission = Submission(state: FieldState, sent: Option<Value>)

  /** `handleSubmit`: on acceptance the file (file fields) or the text value is handed on and both
      are reset; on rejection nothing is handed on and the error is shown. */
  function HandleSubmit(q: Question, st: FieldState, isNaNNumber: string -> bool): (r: Submission)
    ensures r.sent.Some? <==> ValidateInput(q, st, isNaNNumber) == Accept
    ensures r.sent.Some? ==> r.sent.value == (if q.kind == File then st.file else Str(st.value))
    ensures r.sent.Some? ==> r.state.value == "" && r.state.file == Null && r.state.error == st.error
    ensures r.sent.None? ==> r.state == st.(error := ValidateInput(q, st, isNaNNumber).message)
    ensures r.sent.Some? && q.required ==> Truthy(r.sent.value)
  {
    match ValidateInput(q, st, isNaNNumber)
    case Accept =>
      var payload := if q.kind == File then st.file else Str(st.value);
      Submission(FieldState("", Null, st.error), Some(payload))
    case Reject(m) =>
      Submission(st.(error := m), None)
  }
}

=== FILE: send_email.dfy ===
/**
 The template parameters the email sender builds from a finished form: a
 `question_<id>` / `answer_<id>` pair per question, the caller's extra
 template parameters underneath them, and a `form_summary` list on top.
 Initialising and calling the email service is not modelled; the parameters
 handed to it are the result.
 */
module SendEmail {
  import opened Values
  import opened Dicts
  import opened Forms
  import Summary

  const NoAnswer := "No answer provided"
  const SummaryKey := "form_summary"

  /** One element of the `form_summary` list: the question text and the stored answer, or the
      "no answer" marker when that is falsy. */
  datatype SummaryEntry = SummaryEntry(question: string, answer: Value)

  /** A template parameter: a single value, or the `form_summary` list (serialised as JSON text
      before sending). */
  datatype Param = Scalar(v: Value) | Listing(entries: seq<SummaryEntry>)

  function QuestionKey(id: string): string {
    "question_" + id
  }

  function AnswerKey(id: string): string {
    "answer_" + id
  }

  /** Question keys, answer keys and the summary key never collide, and each of the first two
      determines the id. */
  lemma KeysDistinct(id: string, id': string)
    ensures QuestionKey(id) == QuestionKey(id') <==> id == id'
    ensures AnswerKey(id) == AnswerKey(id') <==> id == id'
    ensures QuestionKey(id) != AnswerKey(id')
    ensures QuestionKey(id) != SummaryKey && AnswerKey(id) != SummaryKey
  {
    if QuestionKey(id) == QuestionKey(id') {
      assert id == QuestionKey(id)[9..] && id' == QuestionKey(id')[9..];
    }
    if AnswerKey(id) == AnswerKey(id') {
      assert id == AnswerKey(id)[7..] && id' == AnswerKey(id')[7..];
    }
    assert QuestionKey(id)[0] == 'q' && AnswerKey(id')[0] == 'a' && SummaryKey[0] == 'f';
  }

  /** The answer the email shows for a question: the file's name for an answered file question,
      otherwise the stored answer or the "no answer" marker when that is falsy. */
  function EmailAnswer(answers: Dict<Value>, q: Question): (r: Value)
    ensures var a := Lookup(answers, q.id);
      && (q.kind == File && a.FileRef? ==> r == Str(a.name))
      && (q.kind == File && a.Str? && Truthy(a) ==> r == Undefined)
      && (!Truthy(a) ==> r == Str(NoAnswer))
      && (q.kind != File ==> Truthy(r) && (Truthy(a) ==> r == a))
  {
    var a := Lookup(answers, q.id);
    if q.kind == File && Truthy(a) then NameOf(a) else Or(a, NoAnswer)
  }

  /** The assignments `acc[question_<id>] = text; acc[answer_<id>] = answer`, question by question. */
  function EmailPairs(answers: Dict<Value>, qs: seq<Question>): (ps: seq<(string, Param)>)
    ensures |ps| == 2 * |qs|
    ensures forall i | 0 <= i < |qs| ::
      && ps[2 * i] == (QuestionKey(qs[i].id), Scalar(Str(qs[i].text)))
      && ps[2 * i + 1] == (AnswerKey(qs[i].id), Scalar(EmailAnswer(answers, qs[i])))
  {
    var ps := seq(2 * |qs|, k requires 0 <= k < 2 * |qs| =>
      var q := qs[k / 2];
      if k % 2 == 0 then (QuestionKey(q.id), Scalar(Str(q.text)))
      else (AnswerKey(q.id), Scalar(EmailAnswer(answers, q))));
    assert forall i | 0 <= i < |qs| :: (2 * i) / 2 == i && (2 * i + 1) / 2 == i && (2 * i + 1) % 2 == 1;
    ps
  }

  /** t is the question key or the answer key of some question. */
  predicate IsFormKey(qs: seq<Question>, t: string) {
    exists i | 0 <= i < |qs| :: t == QuestionKey(qs[i].id) || t == AnswerKey(qs[i].id)
  }

  /** `formattedAnswers`: the object built by the `reduce` over the questions. Its keys are exactly
      the question and answer keys of the questions, and a question whose id no later question
      reuses has its text under its question key and its email answer under its answer key. */
  function FormattedAnswers(answers: Dict<Value>, qs: seq<Question>): (r: Dict<Param>)
    ensures forall i | 0 <= i < |qs| :: QuestionKey(qs[i].id) in Keys(r) && AnswerKey(qs[i].id) in Keys(r)
    ensures forall t | t in Keys(r) :: IsFormKey(qs, t)
    ensures forall i | 0 <= i < |qs| && LastWithId(qs, i) ::
      && Get(r, QuestionKey(qs[i].id)) == Some(Scalar(Str(qs[i].text)))
      && Get(r, AnswerKey(qs[i].id)) == Some(Scalar(EmailAnswer(answers, qs[i])))
  {
    FormattedFacts(answers, qs);
    Assign([], EmailPairs(answers, qs))
  }

  /** The key facts `FormattedAnswers` promises, for every key and every question at once. */
  lemma FormattedFacts(answers: Dict<Value>, qs: seq<Question>)
    ensures forall i | 0 <= i < |qs| ::
      && QuestionKey(qs[i].id) in Keys(Assign([], EmailPairs(answers, qs)))
      && AnswerKey(qs[i].id) in Keys(Assign([], EmailPairs(answers, qs)))
    ensures forall t | t in Keys(Assign([], EmailPairs(answers, qs))) :: IsFormKey(qs, t)
    ensures forall i | 0 <= i < |qs| && LastWithId(qs, i) ::
      && Get(Assign([], EmailPairs(answers, qs)), QuestionKey(qs[i].id)) == Some(Scalar(Str(qs[i].text)))
      && Get(Assign([], EmailPairs(answers, qs)), AnswerKey(qs[i].id)) == Some(Scalar(EmailAnswer(answers, qs[i])))
  {
    var r := Assign([], EmailPairs(answers, qs));
    forall t | t in Keys(r)
      ensures IsFormKey(qs, t)
    {
      FormattedKeys(answers, qs, t);
    }
    forall i | 0 <= i < |qs|
      ensures QuestionKey(qs[i].id) in Keys(r) && AnswerKey(qs[i].id) in Keys(r)
    {
      FormattedKeys(answers, qs, QuestionKey(qs[i].id));
      FormattedKeys(answers, qs, AnswerKey(qs[i].id));
      assert IsFormKey(qs, QuestionKey(qs[i].id)) && IsFormKey(qs, AnswerKey(qs[i].id));
    }
    forall i | 0 <= i < |qs| && LastWithId(qs, i)
      ensures Get(r, QuestionKey(qs[i].id)) == Some(Scalar(Str(qs[i].text)))
      ensures Get(r, AnswerKey(qs[i].id)) == Some(Scalar(EmailAnswer(answers, qs[i])))
    {
      FormattedValues(answers, qs, i);
    }
  }

  /** Position k of the pairs belongs to question k / 2: its question key when k is even, its
      answer key when odd. */
  lemma PairAt(answers: Dict<Value>, qs: seq<Question>, k: nat)
    requires k < 2 * |qs|
    ensures k == 2 * (k / 2) + k % 2 && k / 2 < |qs|
    ensures var ps := EmailPairs(answers, qs);
      ps[k].0 == if k % 2 == 0 then QuestionKey(qs[k / 2].id) else AnswerKey(qs[k / 2].id)
  {
    var i := k / 2;
    assert k == 2 * i || k == 2 * i + 1;
  }

  /** Two positions hold the same key only when they belong to questions with the same id and
      are both question keys or both answer keys. */
  lemma PairKeysCollide(answers: Dict<Value>, qs: seq<Question>, a: nat, b: nat)
    requires a < b < 2 * |qs|
    requires EmailPairs(answers, qs)[a].0 == EmailPairs(answers, qs)[b].0
    ensures a / 2 < b / 2 && qs[a / 2].id == qs[b / 2].id
  {
    PairAt(answers, qs, a);
    PairAt(answers, qs, b);
    var i, j := a / 2, b / 2;
    var ra, rb := a % 2, b % 2;
    assert ra == 0 || ra == 1;
    assert rb == 0 || rb == 1;
    KeysDistinct(qs[i].id, qs[j].id);
    KeysDistinct(qs[j].id, qs[i].id);
    assert ra == rb;
    assert i < j;
  }

  /** Every key of the pairs is a question or answer key of some question. */
  lemma PairKeysFromQuestions(answers: Dict<Value>, qs: seq<Question>, t: string)
    requires t in Keys(EmailPairs(answers, qs))
    ensures IsFormKey(qs, t)
  {
    var ps := EmailPairs(answers, qs);
    var k :| 0 <= k < |ps| && Keys(ps)[k] == t;
    PairAt(answers, qs, k);
    assert t == QuestionKey(qs[k / 2].id) || t == AnswerKey(qs[k / 2].id);
  }

  /** Both keys of every question are keys of the pairs. */
  lemma QuestionKeysInPairs(answers: Dict<Value>, qs: seq<Question>, i: nat)
    requires i < |qs|
    ensures QuestionKey(qs[i].id) in Keys(EmailPairs(answers, qs))
    ensures AnswerKey(qs[i].id) in Keys(EmailPairs(answers, qs))
  {
    var ps := EmailPairs(answers, qs);
    assert Keys(ps)[2 * i] == QuestionKey(qs[i].id);
    assert Keys(ps)[2 * i + 1] == AnswerKey(qs[i].id);
  }

  /** The formatted answers hold exactly the question and answer keys of the questions. */
  lemma FormattedKeys(answers: Dict<Value>, qs: seq<Question>, t: string)
    ensures t in Keys(Assign([], EmailPairs(answers, qs))) <==> IsFormKey(qs, t)
  {
    var ps := EmailPairs(answers, qs);
    AssignKeys([], ps, t);
    if t in Keys(ps) {
      PairKeysFromQuestions(answers, qs, t);
    }
    if exists i | 0 <= i < |qs| :: t == QuestionKey(qs[i].id) || t == AnswerKey(qs[i].id) {
      var i :| 0 <= i < |qs| && (t == QuestionKey(qs[i].id) || t == AnswerKey(qs[i].id));
      QuestionKeysInPairs(answers, qs, i);
    }
  }

  /** Question i's id is not reused by a later question. */
  predicate LastWithId(qs: seq<Question>, i: nat)
    requires i < |qs|
  {
    forall j | i < j < |qs| :: qs[j].id != qs[i].id
  }

  /** The pair written at position k is not overwritten when its question is the last with its id. */
  lemma PairLastAssigned(answers: Dict<Value>, qs: seq<Question>, k: nat)
    requires k < 2 * |qs| && LastWithId(qs, k / 2)
    ensures LastAssigned(EmailPairs(answers, qs), k)
  {
    var ps := EmailPairs(answers, qs);
    forall j | k < j < |ps|
      ensures ps[j].0 != ps[k].0
    {
      if ps[j].0 == ps[k].0 {
        PairKeysCollide(answers, qs, k, j);
      }
    }
  }

  /** The pair written at position k survives when its question is the last with its id. */
  lemma FormattedAt(answers: Dict<Value>, qs: seq<Question>, k: nat)
    requires k < 2 * |qs| && LastWithId(qs, k / 2)
    ensures var ps := EmailPairs(answers, qs);
      Get(Assign([], ps), ps[k].0) == Some(ps[k].1)
  {
    PairLastAssigned(answers, qs, k);
    AssignLastWins([], EmailPairs(answers, qs), k);
  }

  /** Each question's pair of entries holds its text and its email answer, unless a later question
      has the same id; the later question's entries then win. */
  lemma FormattedValues(answers: Dict<Value>, qs: seq<Question>, i: nat)
    requires i < |qs| && LastWithId(qs, i)
    ensures var r := Assign([], EmailPairs(answers, qs));
      && Get(r, QuestionKey(qs[i].id)) == Some(Scalar(Str(qs[i].text)))
      && Get(r, AnswerKey(qs[i].id)) == Some(Scalar(EmailAnswer(answers, qs[i])))
  {
    assert (2 * i) / 2 == i && (2 * i + 1) / 2 == i;
    FormattedAt(answers, qs, 2 * i);
    FormattedAt(answers, qs, 2 * i + 1);
  }

  /** With distinct ids the formatted answers list the question and answer key of every question,
      alternating, in question order: two entries per question. */
  lemma FormattedOrder(answers: Dict<Value>, qs: seq<Question>)
    requires UniqueIds(qs)
    ensures Keys(FormattedAnswers(answers, qs)) == Keys(EmailPairs(answers, qs))
    ensures |FormattedAnswers(answers, qs)| == 2 * |qs|
  {
    var ps := EmailPairs(answers, qs);
    forall a, b | 0 <= a < b < |ps|
      ensures ps[a].0 != ps[b].0
    {
      if ps[a].0 == ps[b].0 {
        PairKeysCollide(answers, qs, a, b);
      }
    }
    AssignKeyOrder([], ps);
  }

  /** The `form_summary` list: one entry per question, holding the stored answer itself (for a
      file question the file object, not its name). */
  function FormSummary(answers: Dict<Value>, qs: seq<Question>): (r: seq<SummaryEntry>)
    ensures |r| == |qs|
    ensures forall i | 0 <= i < |qs| ::
      r[i].question == qs[i].text && r[i].answer == Or(Lookup(answers, qs[i].id), NoAnswer)
  {
    seq(|qs|, i requires 0 <= i < |qs| =>
      SummaryEntry(qs[i].text, Or(Lookup(answers, qs[i].id), NoAnswer)))
  }

  /** `{...templateParams, ...formattedAnswers, form_summary: ...}`. */
  function EmailParams(tp: Dict<Param>, answers: Dict<Value>, qs: seq<Question>): (r: Dict<Param>)
    ensures Get(r, SummaryKey) == Some(Listing(FormSummary(answers, qs)))
    ensures forall k | k != SummaryKey ::
      Get(r, k) == match Get(FormattedAnswers(answers, qs), k)
                   case Some(p) => Some(p)
                   case None => Get(tp, k)
  {
    Put(PutAll(tp, FormattedAnswers(answers, qs)), SummaryKey, Listing(FormSummary(answers, qs)))
  }

  /** A question's own entries override a template parameter of the same name, and the summary
      overrides a template parameter called `form_summary`; any other template parameter is
      passed through unchanged. */
  lemma ParamsPrecedence(tp: Dict<Param>, answers: Dict<Value>, qs: seq<Question>, i: nat, k: string)
    requires i < |qs| && LastWithId(qs, i)
    ensures Get(EmailParams(tp, answers, qs), AnswerKey(qs[i].id)) == Some(Scalar(EmailAnswer(answers, qs[i])))
    ensures Get(EmailParams(tp, answers, qs), QuestionKey(qs[i].id)) == Some(Scalar(Str(qs[i].text)))
    ensures k != SummaryKey && (forall j | 0 <= j < |qs| :: k != QuestionKey(qs[j].id) && k != AnswerKey(qs[j].id))
      ==> Get(EmailParams(tp, answers, qs), k) == Get(tp, k)
  {
    KeysDistinct(qs[i].id, qs[i].id);
  }

  /** The email's answer agrees with the answer the review panel shows except for an unanswered
      file question, which the panel marks "No file selected" and the email "No answer provided". */
  lemma EmailAgreesWithReview(answers: Dict<Value>, q: Question)
    ensures EmailAnswer(answers, q) == Summary.DisplayedAnswer(q, Lookup(answers, q.id))
      <==> !(q.kind == File && !Truthy(Lookup(answers, q.id)))
  {
  }

  /** For an answered file question `form_summary` carries the file object itself while the
      `answer_<id>` parameter carries its name. */
  lemma SummaryKeepsFileObject(answers: Dict<Value>, qs: seq<Question>, i: nat)
    requires i < |qs| && qs[i].kind == File && Lookup(answers, qs[i].id).FileRef?
    ensures FormSummary(answers, qs)[i].answer == Lookup(answers, qs[i].id)
    ensures EmailAnswer(answers, qs[i]) == Str(Lookup(answers, qs[i].id).name)
  {
  }
}

=== FILE: strings.dfy ===
/**
 String operations the form uses: `s.replace(/c/g, d)`, `array.join(sep)` and,
 as the partner the CSV text is read back with, `s.split(sep)` for a
 one-character separator.
 */
module Strings {

  /** The characters JavaScript's `\s` matches (ECMAScript WhiteSpace and LineTerminator). */
  predicate IsSpace(c: char) {
    || c == ' ' || c == '\t' || c == '\n' || c == '\r'
    || c == '\U{000B}' || c == '\U{000C}' || c == '\U{00A0}' || c == '\U{1680}'
    || ('\U{2000}' <= c <= '\U{200A}')
    || c == '\U{2028}' || c == '\U{2029}' || c == '\U{202F}' || c == '\U{205F}'
    || c == '\U{3000}' || c == '\U{FEFF}'
  }

  /** `s.replace(/from/g, to)` for a one-character pattern. */
  function ReplaceAll(s: string, from: char, to: char): (r: string)
    ensures |r| == |s|
    ensures forall i | 0 <= i < |s| :: r[i] == if s[i] == from then to else s[i]
  {
    if |s| == 0 then ""
    else [if s[0] == from then to else s[0]] + ReplaceAll(s[1..], from, to)
  }

  /** After replacing every `from` by a different character, no `from` is left. */
  lemma ReplaceAllRemoves(s: string, from: char, to: char)
    requires from != to
    ensures from !in ReplaceAll(s, from, to)
  {
  }

  /** `fields.join(sep)`: the text starts with the first field, and every character in it is the
      separator or a character of some field. */
  function Join(fields: seq<string>, sep: char): (r: string)
    ensures |fields| > 0 ==> fields[0] <= r
    ensures forall c | c in r :: c == sep || exists i | 0 <= i < |fields| :: c in fields[i]
  {
    if |fields| == 0 then ""
    else if |fields| == 1 then fields[0]
    else fields[0] + [sep] + Join(fields[1..], sep)
  }

  /** `s.split(sep)`: the maximal separator-free pieces, always at least one. */
  function Split(s: string, sep: char): (r: seq<string>)
    ensures |r| >= 1
    decreases |s|
  {
    if |s| == 0 then [""]
    else
      var rest := Split(s[1..], sep);
      if s[0] == sep then [""] + rest
      else [[s[0]] + rest[0]] + rest[1..]
  }

  /** A separator-free string splits into itself alone. */
  lemma {:induction false} SplitPlain(s: string, sep: char)
    requires sep !in s
    ensures Split(s, sep) == [s]
  {
    if |s| > 0 {
      assert sep !in s[1..];
      SplitPlain(s[1..], sep);
      assert [s[0]] + s[1..] == s;
    }
  }

  /** Splitting at the first separator: the separator-free head, then the split of the rest. */
  lemma {:induction false} SplitAtSeparator(a: string, b: string, sep: char)
    requires sep !in a
    ensures Split(a + [sep] + b, sep) == [a] + Split(b, sep)
  {
    var s := a + [sep] + b;
    if |a| == 0 {
      assert s[1..] == b;
    } else {
      assert s[1..] == a[1..] + [sep] + b;
      assert sep !in a[1..];
      SplitAtSeparator(a[1..], b, sep);
      assert [a[0]] + a[1..] == a;
    }
  }

  /** Round trip: joining separator-free fields and splitting the result gives the fields back. */
  lemma {:induction false} SplitJoin(fields: seq<string>, sep: char)
    requires |fields| >= 1
    requires forall i | 0 <= i < |fields| :: sep !in fields[i]
    ensures Split(Join(fields, sep), sep) == fields
  {
    if |fields| == 1 {
      SplitPlain(fields[0], sep);
    } else {
      SplitJoin(fields[1..], sep);
      SplitAtSeparator(fields[0], Join(fields[1..], sep), sep);
      assert [fields[0]] + fields[1..] == fields;
    }
  }

  /** A character that occurs in no field and is not the separator does not occur in the joined text. */
  lemma {:induction false} JoinAvoids(fields: seq<string>, sep: char, c: char)
    requires c != sep
    requires forall i | 0 <= i < |fields| :: c !in fields[i]
    ensures c !in Join(fields, sep)
  {
    if |fields| > 1 {
      JoinAvoids(fields[1..], sep, c);
      assert c !in fields[0];
    }
  }
}

=== FILE: summary.dfy ===
/**
 The review panel shown once every question has been answered: one row per
 answer key that names a question, in `Object.keys(answers)` order, each with
 the question text, the displayed answer and an Edit button.
 */
module Summary {
  import opened Values
  import opened Dicts
  import opened Forms

  const NoFileText := "No file selected"
  const NoAnswerText := "No answer provided"

  /** One row: the answer key, the position of the question found for it, the question text shown,
      the answer shown, and the argument its Edit button passes to `onEdit`. */
  datatype Row = Row(key: string, question: nat, text: string, shown: Value, editIndex: nat)

  /** The answer a row shows: a file question shows the file's name or a "no file" marker (a
      string held by a file question has no `name`, so the result is undefined); any other question shows
      its answer, or a "no answer" marker when the answer is falsy. */
  function DisplayedAnswer(q: Question, a: Value): (r: Value)
    ensures q.kind != File ==> Truthy(r)
    ensures q.kind != File && Truthy(a) ==> r == a
    ensures q.kind != File && !Truthy(a) ==> r == Str(NoAnswerText)
    ensures q.kind == File && a.Str? && Truthy(a) ==> r == Undefined
    ensures q.kind == File && a.FileRef? ==> r == Str(a.name)
    ensures q.kind == File && !Truthy(a) ==> r == Str(NoFileText)
  {
    if q.kind == File then (if Truthy(a) then NameOf(a) else Str(NoFileText))
    else Or(a, NoAnswerText)
  }

  /** r is the row the panel builds for the answer entry at position r.editIndex. */
  predicate RowOf(answers: Dict<Value>, qs: seq<Question>, r: Row) {
    && r.editIndex < |answers|
    && r.key == answers[r.editIndex].0
    && r.question < |qs|
    && qs[r.question].id == r.key
    && (forall j | 0 <= j < r.question :: qs[j].id != r.key)
    && r.text == qs[r.question].text
    && r.shown == DisplayedAnswer(qs[r.question], answers[r.editIndex].1)
  }

  /** The rows built from the first n answer entries. */
  function RowsUpTo(answers: Dict<Value>, qs: seq<Question>, n: nat): (rows: seq<Row>)
    requires n <= |answers|
    ensures forall r | r in rows :: RowOf(answers, qs, r) && r.editIndex < n
    ensures forall a, b | 0 <= a < b < |rows| :: rows[a].editIndex < rows[b].editIndex
    ensures forall i | 0 <= i < n ::
      (exists j | 0 <= j < |qs| :: qs[j].id == answers[i].0) <==> (exists r | r in rows :: r.editIndex == i)
  {
    if n == 0 then []
    else
      var rows := RowsUpTo(answers, qs, n - 1);
      var key := answers[n - 1].0;
      match FindQuestion(qs, key)
      case None => rows
      case Some(j) => rows + [Row(key, j, qs[j].text, DisplayedAnswer(qs[j], answers[n - 1].1), n - 1)]
  }

  /** `Object.keys(answers).map(...)`: the rows in answer-key order. Keys that name no question
      produce no row but still take up a position. */
  function Rows(answers: Dict<Value>, qs: seq<Question>): (rows: seq<Row>)
    ensures forall r | r in rows :: RowOf(answers, qs, r)
    ensures forall a, b | 0 <= a < b < |rows| :: rows[a].editIndex < rows[b].editIndex
    ensures forall i | 0 <= i < |answers| ::
      (exists j | 0 <= j < |qs| :: qs[j].id == answers[i].0) <==> (exists r | r in rows :: r.editIndex == i)
  {
    RowsUpTo(answers, qs, |answers|)
  }

  /** The arguments the panel's Edit buttons pass to `onEdit`. */
  function EditIndices(rows: seq<Row>): set<nat> {
    set r | r in rows :: r.editIndex
  }
}

=== FILE: values.dfy ===
/**
 The JavaScript values that flow through the form: what an input field hands to
 the engine, what the answer store holds, and what the formatters read back.
 Only the parts of JavaScript semantics the form relies on are modelled:
 truthiness, `a || b`, property `.name` and string conversion.
 */
module Values {

  datatype Option<+T> = None | Some(value: T)

  /** A value as it can reach the answer store: a string typed or selected in a
      field, a File object (only its name is observable), `null` (a file field
      left empty) or `undefined` (a missing key, or a cancelled file pick). */
  datatype Value = Str(s: string) | FileRef(name: string) | Null | Undefined

  /** JavaScript truthiness: the empty string, null and undefined are falsy; every object is truthy. */
  predicate Truthy(v: Value) {
    match v
    case Str(s) => s != ""
    case FileRef(_) => true
    case Null => false
    case Undefined => false
  }

  /** `v || fallback` for a string fallback. */
  function Or(v: Value, fallback: string): Value {
    if Truthy(v) then v else Str(fallback)
  }

  /** `v.name`: a File's name; a string has no `name` property. Null and undefined would throw, so
      callers only ask a truthy value. */
  function NameOf(v: Value): Value
    requires Truthy(v)
  {
    match v
    case FileRef(n) => Str(n)
    case Str(_) => Undefined
  }

  /** `String(v)`, also what a template literal renders. */
  function ToText(v: Value): string {
    match v
    case Str(s) => s
    case FileRef(_) => "[object File]"
    case Null => "null"
    case Undefined => "undefined"
  }

  /** How `Array.prototype.join` renders one element: null and undefined become the empty string. */
  function JoinText(v: Value): string {
    if v.Null? || v.Undefined? then "" else ToText(v)
  }
}
